=== FILE: README.md ===
# remotion-news: frame layout, prompt shaping and reply cleaning

This project models the deterministic core of a small news-video pipeline. A script fetches web search results and asks a language model for a one-story script. A set of Remotion compositions then turns that script into a vertical video. The model has four parts:

- **NewsReport timeline** (`news_report.dfy`). The ending always takes two seconds. The opening takes 15% of the remaining frames, rounded down. The slides share the rest equally, again rounded down. The model proves where every `Sequence` starts, and that the scenes follow each other without gaps or overlaps from frame 0 and never run past the video. Because the slide length is rounded down, up to `n - 1` trailing frames of a video with `n` slides may show no scene. It also models what a slide scene shows: its 1-based "NEWS n" caption, and whether the image column and the source line appear.
- **SingleNews scenes and background music** (`single_news.dfy`). There are three consecutive scenes, whose lengths default to 150, 300 and 150 frames. The model proves the scenes partition `[0, totalFrames)`. It also covers the keyframes of the one-second fade-out: they are ordered exactly when `totalFrames > fps > 0`, and the resulting volume stays in `[0, 0.12]`, never rises, and reaches 0 at the end.
- **fetch-news script** (`fetch_news.dfy`). It keeps the first three search results and stops when there are none. It numbers the results into the prompt. It trims the model's reply and removes one "```json\n" opening fence and one "\n```" closing fence. It pins the three frame counts and writes the document only after every stage has succeeded.
- **Root registry** (`root.dfy`). This covers `getImageIndex`, which maps a dotted date to an image number, and the concrete settings the two compositions are registered with.

Four files hold shared pieces. `js.dfy` models the JavaScript built-ins the core relies on: `trim`, `split`, `parseInt`, number-to-text and the truncating `%`. `timeline.dfy` models Remotion's `Sequence` placement as half-open frame spans, with a general tiling and partition theorem. `outcomes.dfy` holds `Option` and `Result`, and `prompt_text.dfy` the fixed text of the prompt around the numbered entries.

The frame counts are constants: `fetch-news.ts:96-98` sets 150/300/150, and no audio-length probing appears in the script. Fence removal (`fetch-news.ts:80-81`) handles only a fence tagged `json` whose tag line ends in `\n`. A bare fence stays in the text handed to `JSON.parse`. With a CRLF line end the opening fence stays too, while the closing "\n```" is still removed and leaves a trailing `\r`. The model proves these edge cases.

## Model

| member | source | states |
|---|---|---|
| NewsReport.OpeningShare | src/compositions/NewsReport.tsx:383 | the opening is the floor of 15% of the remaining frames: `100*o <= 15*r < 100*o + 100`, and `0 <= o <= r` whenever `r >= 0` |
| NewsReport.Slots | src/compositions/NewsReport.tsx:406-410 | the `slides.map` placement: every slot has the common length, the first starts at the given frame, each later slot starts where the previous ends, and the last ends `count*slot` frames later |
| NewsReport.SlotStart | src/compositions/NewsReport.tsx:409 | slot `i` starts at `from + i*slot` |
| NewsReport.ComputeLayout | src/compositions/NewsReport.tsx:377-385 | no layout exactly when there are no slides; otherwise the opening starts at frame 0 and lasts the floor of 15% of `durationInFrames - 2*fps`, and the ending lasts `2*fps`; `LayoutWith`, `ComputedLayoutPartitions` and `Root.NewsReportDefaults` pin the rest |
| NewsReport.LayoutWith | src/compositions/NewsReport.tsx:373-425 | no layout exactly when there are no slides (JavaScript divides by zero). Otherwise: the opening is `[0, opening)`; the ending lasts `2*fps`; all slides have one length `d` with `d*n <= slideTotal < (d+1)*n`; the first slide starts where the opening ends; slides are contiguous; the ending starts where the last slide ends; the ending finishes at or before `durationInFrames`, with fewer than `n` frames unused |
| NewsReport.SlideInterval | src/compositions/NewsReport.tsx:406-410 | slide `i` occupies `[opening + i*d, opening + (i+1)*d)` |
| NewsReport.LayoutFits | src/compositions/NewsReport.tsx:377-385 | for any opening with `0 <= opening <= remainingFrames`, the scenes tile the video from frame 0, ending at or before its last frame with fewer than `n` frames left over |
| NewsReport.ScenesTile | src/compositions/NewsReport.tsx:395-425 | opening, slides and ending laid end to end with non-negative lengths form a tiling |
| NewsReport.ComputedLayoutPartitions | src/compositions/NewsReport.tsx:373-425 | with the computed 15% opening and `durationInFrames >= 2*fps`, the report never runs past the video; every frame before the ending finishes is in some scene, and no frame is in two |
| NewsReport.SlideScene | src/compositions/NewsReport.tsx:164-245 | the image column appears iff `slide.image` is defined and non-empty; the text column is then 70% wide, otherwise 100%; the source line appears iff `slide.source` is non-empty; the caption is exactly "NEWS " followed by the decimal text of `index + 1`, which `parseInt` reads back as `index + 1` |
| NewsReport.SlideCaptionsDistinct | src/compositions/NewsReport.tsx:195 | two slide captions are equal iff the positions are equal |
| NewsReport.Render | src/compositions/NewsReport.tsx:406-420 | no report without slides; otherwise the layout is the computed one, there is one view per slide, and view `i` is `SlideScene` of slide `i` at position `i`, so everything `SlideScene` states holds for it: captioned "NEWS `i + 1`", the image column and the source line exactly when those are non-empty, and a 70% text column beside an image, 100% without |
| NewsReport.RenderedReportPartitions | src/compositions/NewsReport.tsx:373-425 | a rendered report never runs past the video, and every frame before its ending finishes shows exactly one scene |
| NewsReport.CaptionsDiffer | src/compositions/NewsReport.tsx:195 | two labels made of one prefix and a rendered number are equal exactly when the numbers are |
| Timeline.TilesOrdered | src/compositions/NewsReport.tsx:406-411 | in a tiling, an earlier `Sequence` ends no later than a later one starts |
| Timeline.TilesBounds | src/compositions/NewsReport.tsx:395-432 | every span of a tiling lies between the tiling's start and finish |
| Timeline.SpanAt | src/compositions/SingleNews.tsx:361-394 | for a frame between a tiling's start and finish, some span is on screen at that frame |
| Timeline.TilesPartition | src/compositions/SingleNews.tsx:361-394 | a frame that some span contains lies in the tiling's range, and `SpanAt` names exactly that span, so no frame is in two spans |
| SingleNews.Compose | src/compositions/SingleNews.tsx:326-395 | three scenes in the order opening, slide, ending. They start at 0, `openingFrames` and `openingFrames + slideFrames`, each lasting its own prop (default 150/300/150). The last ends at `totalFrames`, which is their sum; `fadeOutStart = totalFrames - fps`. All scenes get the same theme colour (default `#00FFaa`) and image index (default 1) |
| SingleNews.DefaultLengths | src/compositions/SingleNews.tsx:333-339 | with no frame props the scenes are `[0,150)`, `[150,450)` and `[450,600)`, 600 frames in all |
| SingleNews.ScenesPartition | src/compositions/SingleNews.tsx:361-394 | for non-negative lengths the scenes tile the timeline; a frame is in some scene iff `0 <= frame < totalFrames`, and it is never in two |
| SingleNews.KeyframesOrdered | src/compositions/SingleNews.tsx:344-347 | the keyframes `[0, fadeOutStart, totalFrames]` are strictly increasing iff `totalFrames > fps > 0` |
| SingleNews.Segment | src/compositions/SingleNews.tsx:345-350 | one `interpolate` segment: it gives `y0` at `x0` and `y1` from `x1` on (right clamp), stays at `y0` when both ends are equal, and on a falling segment lies strictly between the ends inside the segment |
| SingleNews.BgmVolume | src/compositions/SingleNews.tsx:343-350 | defined iff the keyframes are strictly increasing; then the volume is in `[0, 0.12]`, equals 0.12 up to `fadeOutStart` (also before frame 0), is 0 from `totalFrames` on (clamped), and lies strictly between the two during the fade |
| SingleNews.BgmFadesMonotonically | src/compositions/SingleNews.tsx:345-350 | the background volume never rises as the frame number grows |
| FetchNews.SelectResults | fetch-news.ts:27 | the selection is the first `min(3, n)` results in order; a missing `web` or `results` gives the empty selection |
| FetchNews.BuildPrompt | fetch-news.ts:29-49 | a prompt is built exactly when the selection is non-empty; an empty selection fails with `NoNewsFound`; a prompt is exactly as long as the header, the entries and the output-format block together, so with `PromptFramed` and `PromptEntry` nothing else sits between them |
| FetchNews.PromptFramed | fetch-news.ts:33-49 | every prompt starts with the fixed request header and ends with the fixed output-format block |
| FetchNews.FetchNewsStage | fetch-news.ts:22-49 | a refused search request fails with its status; otherwise the stage fails exactly when no result was selected, with `NoNewsFound`, and the prompt it returns for delivered results is the one `BuildPrompt` makes from them, so `BuildPrompt`'s length clause, `PromptEntry` and `PromptNumbering` apply to it; any prompt starts with the request header and ends with the output-format block |
| FetchNews.FlattenAppend | fetch-news.ts:34-36 | appending entries in one loop over two lists gives the first list's text followed by the second's |
| FetchNews.EntryAt | fetch-news.ts:33-49 | in a header, then concatenated entries, then a footer, entry `k` occupies the characters right after the header and the entries before it, and the rest of the text follows it |
| FetchNews.PromptEntry | fetch-news.ts:33-36 | the `k`-th prompt entry is the entry of the `k`-th selected result, and it occupies the prompt's characters right after the header and the entries before it |
| FetchNews.PromptNumbering | fetch-news.ts:34-35 | the prompt read from where the `k`-th entry starts gives the number `k + 1`: entries are numbered from 1, in order |
| FetchNews.EntryNumber | fetch-news.ts:35 | an entry line, and whatever follows it, starts with the 1-based number of its result |
| FetchNews.StripPrefix | fetch-news.ts:81 | a leading match is removed so that the pattern followed by the result gives back the input; otherwise the input is unchanged |
| FetchNews.StripSuffix | fetch-news.ts:81 | a trailing match is removed so that the result followed by the pattern gives back the input; otherwise the input is unchanged |
| FetchNews.StripFences | fetch-news.ts:80-81 | text not starting with the marker is unchanged. Otherwise an opening fence at the front is removed, and then a closing fence is removed from the end of what remains; the result is exactly the text between the fences that were found |
| FetchNews.CleanReply | fetch-news.ts:77-82 | a trimmed reply not starting with "```json" is handed to `JSON.parse` as it is, and no reply grows; `CleanReplyBounds`, `FenceRoundTrip` and `UnclosedFence` pin the fenced cases |
| FetchNews.CleanReplyBounds | fetch-news.ts:77-82 | a trimmed reply not starting with "```json" is parsed as it is; any other loses either nothing or exactly the 8 characters of the opening fence at the front, and either nothing or exactly the 4 of the closing fence at the back |
| FetchNews.StripWrapped | fetch-news.ts:77-81 | wrapping any text in a fence pair that starts with the marker and has no whitespace at its outer ends, then trimming and stripping, gives the text back |
| FetchNews.FenceRoundTrip | fetch-news.ts:80-81 | cleaning "```json\n" + s + "\n```" gives back s, for every s |
| FetchNews.OneFenceEachSide | fetch-news.ts:81 | with two fences on each side, only the outer pair is removed |
| FetchNews.BareFenceKept | fetch-news.ts:80 | a bare "```" fence with no `json` tag is left in place, whatever it wraps |
| FetchNews.UnclosedFence | fetch-news.ts:80-81 | a reply "```json\n" + `s`, where `s` is non-empty, does not end in whitespace and does not end with "\n```", loses just the opening fence and cleans to `s` |
| FetchNews.FencesDoNotOverlap | fetch-news.ts:81 | "```json\n```" cleans to "```": the opening fence takes the line break, so no closing fence is left to remove |
| FetchNews.CrlfFenceKeepsPrefix | fetch-news.ts:80-81 | with "```json\r\n" the opening fence stays; the closing "\n```" still goes, leaving a trailing "\r" |
| FetchNews.GenerateJson | fetch-news.ts:71-84 | a refused model request fails with its status and text; a delivered reply fails only with `ParseError`; a reply whose trimmed text does not start with "```json" is parsed as trimmed; every delivered reply succeeds exactly when its cleaned text parses, with that object |
| FetchNews.FencedReplyParsed | fetch-news.ts:77-84 | a reply wrapped in the `json` fence succeeds exactly when the text inside parses, with that object, and otherwise fails with `ParseError` |
| FetchNews.WithFrames | fetch-news.ts:96-98 | the written record has `openingFrames = 150`, `slideFrames = 300`, `endingFrames = 150`, and every other field the model returned, unchanged |
| FetchNews.Main | fetch-news.ts:87-110 | exit code 0 iff a document was written, and 1 otherwise; the search call comes first; once the search stage produced a prompt, the model call comes second; a write happens only as the last step after the search and model calls |
| FetchNews.WriteOnlyAfterSuccess | fetch-news.ts:88-103 | the document is written iff the search stage produced a prompt and the model stage produced a parsed object; the document then holds the fixed frame counts and otherwise the model's fields |
| FetchNews.FailedSearchStopsBeforeModel | fetch-news.ts:22-31 | a refused search or one with no results ends the run after the search call, before the model is asked anything, with exit code 1 and nothing written |
| Js.Trim | fetch-news.ts:77 | the trimmed text is no longer than the input and has no whitespace or line terminator at either end |
| Js.TrimIsInfix | fetch-news.ts:77 | the trimmed text is the infix of the input that starts right after its leading whitespace |
| Js.TrimDropsSpaces | fetch-news.ts:77 | everything `trim` drops before and after that infix is whitespace, so it removes exactly the leading and trailing whitespace |
| Js.TrimIdempotent | fetch-news.ts:77 | trimming twice is trimming once |
| Js.TrimUnchanged | fetch-news.ts:77 | a string with no space at either end is its own trim |
| Js.Split | src/Root.tsx:10 | `split('.')` yields at least one piece, and no piece contains the separator |
| Js.JoinSplit | src/Root.tsx:10 | joining the pieces of a split with the separator gives back the input |
| Js.SplitJoin | src/Root.tsx:10 | splitting undoes joining whenever no piece contains the separator |
| Js.NatToDecimal | fetch-news.ts:35 | a number renders as decimal digits with no leading zero |
| Js.DecimalValue | fetch-news.ts:35 | the rendered digits denote the number itself |
| Js.ParseIntSkipsSpace | src/Root.tsx:10 | a leading whitespace character does not change what `parseInt` reads |
| Js.ParseIntSign | src/Root.tsx:10 | after a leading `-` the magnitude is negated, after a `+` it is kept; no digits after the sign gives NaN |
| Js.ParseIntOfDigits | src/Root.tsx:10 | text that starts with a decimal digit reads as its magnitude, with no sign |
| Js.MagnitudeOfDecimal | src/Root.tsx:10 | rendered decimal digits followed by text that starts with neither a letter nor a digit have the rendered number as magnitude; `0` followed by such text is not read as a `0x` prefix |
| Js.ParseIntOfDecimal | src/Root.tsx:10 | `parseInt` reads a rendered number back, also when text not starting with a letter or digit follows it |
| Js.Rem | src/Root.tsx:11 | JavaScript `%` differs from the dividend by a multiple of the divisor and takes the dividend's sign: in `[0, b)` for `a >= 0`, in `(-b, 0]` for `a < 0` |
| Root.DayText | src/Root.tsx:10 | the day text is the third dot-separated component when that exists and is non-empty, and otherwise "1" |
| Root.ImageIndexOfDay | src/Root.tsx:11 | the index is congruent to the day modulo 5; it is in 1..5 for day >= 1, and in -3..1 otherwise |
| Root.GetImageIndex | src/Root.tsx:8-12 | NaN exactly when the day text has no leading digits; otherwise congruent to the day modulo 5, and in 1..5 whenever the day is at least 1 |
| Root.ImageIndexInRange | src/Root.tsx:7-11 | for a parsed day >= 1 the index lies in 1..5, as the comment promises |
| Root.ImageIndexPeriodic | src/Root.tsx:11 | for days >= 1, days `d` and `d + 5` give the same index |
| Root.ImageIndexExamples | src/Root.tsx:11 | day 1 gives 1, day 5 gives 5, day 6 gives 1, day 26 gives 1 |
| Root.DaysBelowOne | src/Root.tsx:11 | below day 1 the truncating `%` leaves days 0 down to -3 at their own value, and every day with `day - 1` a multiple of 5, such as -4, gives 1 |
| Root.MissingDayIsOne | src/Root.tsx:10 | a missing or empty third component defaults to "1", giving index 1 |
| Root.DayReads | src/Root.tsx:10-11 | a day component that is the decimal text of `n` gives the index of day `n` |
| Root.DayOfDottedDate | src/Root.tsx:10-11 | a date `year.month.n` whose first two parts hold no dot gives the index of day `n` |
| Root.DottedDate | src/Root.tsx:88 | the dotted date "2026.02.26" gives day 26 and index 1 |
| Root.UndottedDate | src/Root.tsx:34 | a date written without dots, such as "2026年2月24日", gives index 1 |
| Root.DayZeroOutOfRange | src/Root.tsx:11 | day 0 (date "2026.02.0") gives index 0, outside 1..5 |
| Root.ImageIndexOfDayFloored | src/Root.tsx:7-11 | with a floored remainder the index is in 1..5 for every day, and equals the shipped index for every day >= 1 |
| Root.GetImageIndexFloored | src/Root.tsx:8-12 | a date whose day parses always yields an index in 1..5; for days >= 1 it is the shipped function's result |
| Root.NewsReportDefaults | src/Root.tsx:25-51 | with 3000 frames, 30 fps and three slides: opening `[0,441)`, slides of 833 frames at 441, 1274 and 2107, ending `[2940,3000)`, filling the video exactly |
| Root.SingleNewsDefaults | src/Root.tsx:59-76 | Root's SingleNews props carry no frame or theme fields, so the scenes fall back to 150/300/150 and `#00FFaa`; frames 600..2999 of the registered 3000 show no scene |

## Left out

- Network calls to the search and model endpoints, and the credentials embedded as fallbacks (fetch-news.ts:5-26, 55-70). The HTTP exchange is a parameter that is either delivered or refused with a status.
- The search body's own `response.json()` (fetch-news.ts:26) can throw on a body that is not JSON. `Delivered` carries an already-parsed body, so that failure is not modelled.
- `JSON.parse` is a function parameter that returns an object or nothing. Replies that parse to arrays, primitives or `null` are not modelled: assigning the frame fields to those throws or is lost.
- A model response without `choices[0].message.content` is not modelled. The reply is taken to be that string.
- `JSON.stringify`, its key order and indentation, and `fs.writeFileSync` are not modelled. The write is an abstract step in the run's call log.
- Console output and the script's top-level `main()` invocation are not modelled.
- NewsReport.OpeningShare: `Math.floor(r * 0.15)` uses a double. The model reads 0.15 as the exact fraction 15/100, so double rounding is not modelled. All layout lemmas except `ComputedLayoutPartitions`, `RenderedReportPartitions` and `Root.NewsReportDefaults`, which use the computed opening, hold for any opening with `0 <= opening <= remainingFrames`.
- Frame counts and `fps` are integers. Remotion's own validation of the composition settings and of `Sequence` props is library code and is not modelled. Remotion rejects a `Sequence` whose `durationInFrames` is not positive; the tiling lemmas allow zero-length spans, such as a zero opening, or slides of length 0 when there are more slides than slide frames.
- SingleNews.BgmVolume: the model covers only this one `interpolate` call. When the keyframes are not strictly increasing, the library throws; the model gives no volume. The volume is computed in exact reals, not in JavaScript doubles. All other `interpolate` and `Easing` curves only animate opacity, position and scale; they use double arithmetic inside Remotion's `interpolate` and `Easing`, which are library code.
- JSX styling, `Img`, `Audio`/`Html5Audio`, `staticFile`, `AbsoluteFill` and the `useCurrentFrame`/`useVideoConfig` hooks are not modelled. Frame and `fps` are parameters instead.
- `getRandomImageIndex` (`Math.random`) and the `toLocaleDateString` display date are nondeterministic. The random index is a parameter of `Root.SingleNewsDefaults`.
- `NewsVideo`, the legacy composition imported at src/Root.tsx:3 and registered at src/Root.tsx:79-99, is not part of this model: it is kept only for backward compatibility (src/Root.tsx:78) and takes no part in the news pipeline.
- Text-to-speech, audio concatenation and duration probing do not appear in this code. The frame counts are constants.
- Js.ParseInt: it has no contract of its own. What it reads is pinned by `Js.ParseIntSkipsSpace`, `Js.ParseIntSign`, `Js.ParseIntOfDigits` and `Js.ParseIntOfDecimal`. Numbers beyond 2^53, which JavaScript rounds, are unbounded here.
- Strings are sequences of Unicode code points, not UTF-16 code units. This changes lengths only for characters outside the Basic Multilingual Plane, and none of those are whitespace.
- Search results whose `title` or `description` is `null` or not a string are not modelled. A missing field renders as "undefined".

## Findings

| source | as written | input that shows it | evidently intended | confidence | as-written member | corrected member |
|---|---|---|---|---|---|---|
| src/Root.tsx:11 | `((day - 1) % 5) + 1` with JavaScript's truncating `%` | date "2026.02.0": day 0 gives index 0. Days below 1 give -3..1; for example, day -4 gives 1 (`Root.DaysBelowOne`) | an image number in 1..5 for any date, as the comment on line 7 says | low; not executed. Calendar days are never below 1, and `getImageIndex` has no caller in src/Root.tsx | Root.DayZeroOutOfRange | Root.GetImageIndexFloored |

=== FILE: fetch_news.dfy ===
/** The news-fetching script (fetch-news.ts): keep the first three search
    results, number them into a prompt, clean the language model's reply of
    one Markdown code fence, pin the three frame counts, and write the
    document only when every stage succeeded. The HTTP calls, `JSON.parse`
    and the file write are parameters or abstract effects. */
module FetchNews {
  import opened Outcomes
  import opened Js
  import PromptText

  // ---------------------------------------------------------------------
  // Data
  // ---------------------------------------------------------------------

  /** One web result; `None` is a field the search API left out. */
  datatype SearchResult = SearchResult(title: Option<string>, description: Option<string>)

  datatype WebSection = WebSection(results: Option<seq<SearchResult>>)

  /** The search API's JSON body; only `web.results` is read. */
  datatype SearchBody = SearchBody(web: Option<WebSection>)

  /** What `fetch` reports: a successful response with its body, or a
      response whose `ok` is false, with its status and text. */
  datatype HttpReply<T> = Delivered(body: T) | Refused(status: int, text: string)

  /** A JSON value as `JSON.parse` produces it. */
  datatype Json =
    | JNull
    | JBool(b: bool)
    | JNumber(n: real)
    | JString(s: string)
    | JArray(items: seq<Json>)
    | JObject(fields: map<string, Json>)

  type JsonObject = map<string, Json>

  /** The errors that end a run (exit code 1). */
  datatype Failure =
    | SearchApiError(status: int)
    | NoNewsFound
    | LlmApiError(status: int, text: string)
    | ParseError

  // ---------------------------------------------------------------------
  // Stage 1: search results and prompt
  // ---------------------------------------------------------------------

  const MaxResults: nat := 3

  /** `data.web?.results?.slice(0, 3) || []` */
  function SelectResults(data: SearchBody): (r: seq<SearchResult>)
    ensures |r| <= MaxResults
    ensures data.web.Some? && data.web.value.results.Some? ==>
      var all := data.web.value.results.value;
      |r| == (if |all| < MaxResults then |all| else MaxResults) && r == all[..|r|]
    ensures data.web.None? || data.web.value.results.None? ==> r == []
  {
    match data.web
    case Some(WebSection(Some(all))) => if |all| <= MaxResults then all else all[..MaxResults]
    case _ => []
  }

  /** How a template literal renders a field that may be missing. */
  function Shown(s: Option<string>): string {
    s.GetOr("undefined")
  }

  /** The prompt lines for the result at 0-based position `k`. */
  function Entry(k: nat, r: SearchResult): string {
    NatToDecimal(k + 1) + EntryText(r)
  }

  /** An entry after its number. */
  function EntryText(r: SearchResult): string {
    ". タイトル: " + Shown(r.title) + "\n   概要: " + Shown(r.description) + "\n\n"
  }

  /** The `forEach` loop's entries, one per result, numbered from 1. */
  function EntryList(rs: seq<SearchResult>): (es: seq<string>)
    ensures |es| == |rs|
    ensures forall i :: 0 <= i < |rs| ==> es[i] == Entry(i, rs[i])
  {
    seq(|rs|, i requires 0 <= i < |rs| => Entry(i, rs[i]))
  }

  /** The texts of `xs` concatenated in order, as the loop's `+=` builds them. */
  function Flatten(xs: seq<string>): string
    decreases |xs|
  {
    if |xs| == 0 then "" else xs[0] + Flatten(xs[1..])
  }

  /** Concatenating two lists of texts is concatenating their texts. */
  lemma {:induction false} FlattenAppend(a: seq<string>, b: seq<string>)
    ensures Flatten(a + b) == Flatten(a) + Flatten(b)
    decreases |a|
  {
    if |a| == 0 {
      assert a + b == b;
    } else {
      assert (a + b)[0] == a[0];
      assert (a + b)[1..] == a[1..] + b;
      FlattenAppend(a[1..], b);
      Assoc(a[0], Flatten(a[1..]), Flatten(b));
    }
  }

  lemma Assoc(x: string, y: string, z: string)
    ensures x + (y + z) == x + y + z
  {
  }

  /** The concatenation split around the text at position `k`. */
  lemma FlattenAround(xs: seq<string>, k: nat)
    requires k < |xs|
    ensures Flatten(xs) == Flatten(xs[..k]) + xs[k] + Flatten(xs[k + 1..])
  {
    assert xs == xs[..k] + xs[k..];
    FlattenAppend(xs[..k], xs[k..]);
    assert xs[k..][0] == xs[k] && xs[k..][1..] == xs[k + 1..];
    Assoc(Flatten(xs[..k]), xs[k], Flatten(xs[k + 1..]));
  }

  /** Stage 1 once the search response arrived: fail with `NoNewsFound` when
      nothing was selected, otherwise the header, the numbered entries and
      the output-format block (see `PromptFramed` and `PromptEntry`). */
  function BuildPrompt(data: SearchBody): (r: Result<string, Failure>)
    ensures r.Err? <==> SelectResults(data) == []
    ensures r.Err? ==> r.error == NoNewsFound
    ensures r.Ok? ==> |r.value| == |PromptText.Header| + |Flatten(EntryList(SelectResults(data)))| + |PromptText.Footer|
  {
    var selected := SelectResults(data);
    if |selected| == 0 then Err(NoNewsFound)
    else Ok(PromptText.Header + Flatten(EntryList(selected)) + PromptText.Footer)
  }

  /** Every prompt opens with the request header and closes with the
      output-format block. */
  lemma PromptFramed(data: SearchBody)
    requires BuildPrompt(data).Ok?
    ensures StartsWith(BuildPrompt(data).value, PromptText.Header)
    ensures EndsWith(BuildPrompt(data).value, PromptText.Footer)
  {
    var p := BuildPrompt(data).value;
    Framed(p, PromptText.Header, Flatten(EntryList(SelectResults(data))), PromptText.Footer);
  }

  lemma Framed(p: string, h: string, m: string, f: string)
    requires p == h + m + f
    ensures StartsWith(p, h) && EndsWith(p, f)
  {
    assert p[..|h|] == h;
    assert p[|h + m|..] == f;
  }

  /** `fetchNews()`: a refused search request fails with its status, an
      empty selection with `NoNewsFound`; any prompt it returns is the one
      `BuildPrompt` makes from the delivered results, framed by the request
      header and the output-format block. */
  function FetchNewsStage(reply: HttpReply<SearchBody>): (r: Result<string, Failure>)
    ensures reply.Refused? ==> r == Err(SearchApiError(reply.status))
    ensures r.Err? <==> reply.Refused? || SelectResults(reply.body) == []
    ensures reply.Delivered? && r.Err? ==> r.error == NoNewsFound
    ensures r.Ok? ==> StartsWith(r.value, PromptText.Header) && EndsWith(r.value, PromptText.Footer)
    ensures reply.Delivered? ==> r == BuildPrompt(reply.body)
  {
    match reply
    case Refused(status, _) => Err(SearchApiError(status))
    case Delivered(body) =>
      if BuildPrompt(body).Ok? then
        PromptFramed(body);
        BuildPrompt(body)
      else BuildPrompt(body)
  }

  /** In a framed concatenation `p`, text `k` starts right after the header
      and the texts before it, and the rest of the concatenation follows it. */
  lemma EntryAt(p: string, h: string, f: string, xs: seq<string>, k: nat)
    requires k < |xs| && p == h + Flatten(xs) + f
    ensures var at := |h| + |Flatten(xs[..k])|;
      && at + |xs[k]| <= |p|
      && (forall j :: 0 <= j < |xs[k]| ==> p[at + j] == xs[k][j])
      && p[at..] == xs[k] + (Flatten(xs[k + 1..]) + f)
  {
    FlattenAround(xs, k);
    Pieces(p, h, Flatten(xs), f, Flatten(xs[..k]), xs[k], Flatten(xs[k + 1..]));
  }

  /** When text `k` and what follows it read as the number `n`, so does the
      framed concatenation `p` from where text `k` starts. */
  lemma TextReads(p: string, h: string, f: string, xs: seq<string>, k: nat, n: int)
    requires k < |xs| && p == h + Flatten(xs) + f
    requires ParseInt(xs[k] + (Flatten(xs[k + 1..]) + f)) == Some(n)
    ensures var at := |h| + |Flatten(xs[..k])|;
      at <= |p| && ParseInt(p[at..]) == Some(n)
  {
    EntryAt(p, h, f, xs, k);
  }

  /** The `k`-th selected result (0-based) appears in the prompt as the
      `k`-th entry, right after the header and the entries before it. */
  lemma PromptEntry(data: SearchBody, k: nat)
    requires k < |SelectResults(data)|
    ensures var p := BuildPrompt(data).value;
      var es := EntryList(SelectResults(data));
      var at := |PromptText.Header| + |Flatten(es[..k])|;
      && es[k] == Entry(k, SelectResults(data)[k])
      && at + |es[k]| <= |p|
      && (forall j :: 0 <= j < |es[k]| ==> p[at + j] == es[k][j])
  {
    var es := EntryList(SelectResults(data));
    EntryAt(BuildPrompt(data).value, PromptText.Header, PromptText.Footer, es, k);
  }

  /** The prompt read from where the `k`-th entry starts gives the number
      `k + 1`: the entries are numbered from 1 in order. */
  lemma PromptNumbering(data: SearchBody, k: nat)
    requires k < |SelectResults(data)|
    ensures var p := BuildPrompt(data).value;
      var at := |PromptText.Header| + |Flatten(EntryList(SelectResults(data))[..k])|;
      at <= |p| && ParseInt(p[at..]) == Some(k + 1)
  {
    var rs := SelectResults(data);
    var es := EntryList(rs);
    EntryNumber(k, rs[k], Flatten(es[k + 1..]) + PromptText.Footer);
    TextReads(BuildPrompt(data).value, PromptText.Header, PromptText.Footer, es, k, k + 1);
  }

  /** An entry, and whatever follows it, reads back as its 1-based number. */
  lemma EntryNumber(k: nat, r: SearchResult, z: string)
    ensures ParseInt(Entry(k, r) + z) == Some(k + 1)
  {
    assert EntryText(r)[0] == '.';
    NumberThenText(k + 1, EntryText(r), z);
  }

  /** A rendered number followed by text that starts with neither a letter
      nor a digit reads back as that number, whatever comes after. */
  lemma NumberThenText(n: nat, t: string, z: string)
    requires |t| > 0 && DigitValue(t[0]) == 36
    ensures ParseInt(NatToDecimal(n) + t + z) == Some(n)
  {
    Assoc(NatToDecimal(n), t, z);
    assert (t + z)[0] == t[0];
    ParseIntOfDecimal(n, t + z);
  }

  /** In `p = h + m + f` with `m = a + e + b`: where the middle piece `e`
      sits, and what follows it. */
  lemma Pieces(p: string, h: string, m: string, f: string, a: string, e: string, b: string)
    requires p == h + m + f && m == a + e + b
    ensures |h| + |a| + |e| <= |p|
    ensures forall j :: 0 <= j < |e| ==> p[|h| + |a| + j] == e[j]
    ensures p[|h| + |a|..] == e + (b + f)
  {
    assert p == (h + a) + e + (b + f);
    assert p[|h + a|..] == e + (b + f);
    forall j | 0 <= j < |e|
      ensures p[|h| + |a| + j] == e[j]
    {
      assert p[|h| + |a| + j] == p[|h + a|..][j];
    }
  }

  // ---------------------------------------------------------------------
  // Stage 2: cleaning the language model's reply
  // ---------------------------------------------------------------------

  const FenceMarker: string := "```json"
  const OpeningFence: string := "```json\n"
  const ClosingFence: string := "\n```"

  /** `s.replace(/^p/, '')` for a literal pattern `p`. */
  function StripPrefix(s: string, p: string): (r: string)
    ensures StartsWith(s, p) ==> p + r == s && r == s[|p|..]
    ensures !StartsWith(s, p) ==> r == s
  {
    if StartsWith(s, p) then
      assert s == s[..|p|] + s[|p|..];
      s[|p|..]
    else s
  }

  /** `s.replace(/p$/, '')` for a literal pattern `p`; without the `m` flag
      `$` matches only at the very end. */
  function StripSuffix(s: string, p: string): (r: string)
    ensures EndsWith(s, p) ==> r + p == s && r == s[..|s| - |p|]
    ensures !EndsWith(s, p) ==> r == s
  {
    if EndsWith(s, p) then
      assert s == s[..|s| - |p|] + s[|s| - |p|..];
      s[..|s| - |p|]
    else s
  }

  /** The fence removal of `generateJSON` for a given marker and pair of
      fences: when `t` starts with the marker, one `open` goes from the
      front and then one `close` from the back of what remains. */
  function StripFences(t: string, marker: string, open: string, close: string): (r: string)
    ensures !StartsWith(t, marker) ==> r == t
    ensures |t| - |close| - |open| <= |r| <= |t|
    ensures StartsWith(t, marker) && StartsWith(t, open) ==>
      && (|open| + |close| <= |t| && EndsWith(t, close) ==> r == t[|open|..|t| - |close|])
      && (!(|open| + |close| <= |t| && EndsWith(t, close)) ==> r == t[|open|..])
    ensures StartsWith(t, marker) && !StartsWith(t, open) ==>
      && (EndsWith(t, close) ==> r == t[..|t| - |close|])
      && (!EndsWith(t, close) ==> r == t)
  {
    if StartsWith(t, marker) then
      var u := StripPrefix(t, open);
      var r := StripSuffix(u, close);
      if StartsWith(t, open) then
        if EndsWith(u, close) then
          DropThenStrip(t, |open|, close);
          r
        else r
      else r
    else t
  }

  /** A suffix match after dropping a prefix is a suffix match of the whole,
      and removing both leaves the infix between them. */
  lemma DropThenStrip(t: string, n: nat, p: string)
    requires n <= |t| && EndsWith(t[n..], p)
    ensures n + |p| <= |t| && EndsWith(t, p)
    ensures t[n..][..|t| - n - |p|] == t[n..|t| - |p|]
  {
    assert t[n..][|t| - n - |p|..] == t[|t| - |p|..];
  }

  /** The text handed to `JSON.parse`: the trimmed reply, with the `json`
      fences stripped when it starts with "```json". */
  function CleanReply(content: string): (c: string)
    ensures !StartsWith(Trim(content), FenceMarker) ==> c == Trim(content)
    ensures |c| <= |Trim(content)|
  {
    StripFences(Trim(content), FenceMarker, OpeningFence, ClosingFence)
  }

  /** A trimmed reply that does not start with "```json" is parsed as it
      is; any other is cut by nothing or the eight characters of the
      opening fence at the front, and by nothing or the four of the closing
      fence at the back. */
  lemma CleanReplyBounds(content: string)
    ensures var t := Trim(content);
      && (!StartsWith(t, FenceMarker) ==> CleanReply(content) == t)
      && |t| - 12 <= |CleanReply(content)| <= |t|
    ensures var t := Trim(content); var c := CleanReply(content);
      || c == t
      || (8 <= |t| && c == t[8..])
      || (4 <= |t| && c == t[..|t| - 4])
      || (12 <= |t| && c == t[8..|t| - 4])
  {
  }

  /** A reply with no whitespace at either end is cleaned as it is. */
  lemma CleanTrimmed(t: string)
    requires |t| > 0 && !IsSpace(t[0]) && !IsSpace(t[|t| - 1])
    ensures CleanReply(t) == StripFences(t, FenceMarker, OpeningFence, ClosingFence)
  {
    TrimUnchanged(t);
  }

  /** A reply that opens with the `json` fence and whose remaining text
      does not end with the closing one loses just the opening fence. */
  lemma UnclosedFence(s: string)
    requires |s| > 0 && !IsSpace(s[|s| - 1]) && !EndsWith(s, ClosingFence)
    ensures CleanReply(OpeningFence + s) == s
  {
    var t := OpeningFence + s;
    assert t[0] == '`' && t[|t| - 1] == s[|s| - 1];
    assert StartsWith(t, FenceMarker) && StartsWith(t, OpeningFence) && t[|OpeningFence|..] == s by {
      PrefixOfConcat(OpeningFence, s);
      assert t[..|FenceMarker|] == FenceMarker;
    }
    assert !(|OpeningFence| + |ClosingFence| <= |t| && EndsWith(t, ClosingFence)) by {
      if |OpeningFence| + |ClosingFence| <= |t| {
        assert t[|t| - |ClosingFence|..] == s[|s| - |ClosingFence|..];
      }
    }
    CleanTrimmed(t);
  }

  /** The two fences cannot share a line break: in "```json\n```" the
      opening fence goes and the three backticks left are no closing
      fence. */
  lemma FencesDoNotOverlap()
    ensures CleanReply(OpeningFence + "```") == "```"
  {
    UnclosedFence("```");
  }

  lemma PrefixOfConcat(a: string, b: string)
    ensures StartsWith(a + b, a)
  {
    assert (a + b)[..|a|] == a;
  }

  lemma SuffixOfConcat(a: string, b: string)
    ensures EndsWith(a + b, b)
  {
    assert (a + b)[|a|..] == b;
  }

  /** A string that differs from `p` at some position of both does not
      start with `p`. */
  lemma Mismatch(t: string, p: string, i: nat)
    requires i < |p| && i < |t| && t[i] != p[i]
    ensures !StartsWith(t, p)
  {
    if |p| <= |t| {
      assert t[..|p|][i] != p[i];
    }
  }

  /** Wrapping `s` in a fence pair that opens with the marker and has no
      space at its outer ends, then stripping, gives `s` back. */
  lemma {:induction false} StripWrapped(s: string, marker: string, open: string, close: string)
    requires StartsWith(open, marker)
    requires |open| > 0 && |close| > 0
    requires !IsSpace(open[0]) && !IsSpace(close[|close| - 1])
    ensures StripFences(Trim(open + s + close), marker, open, close) == s
  {
    var u := s + close;
    var t := open + u;
    assert open + s + close == t;
    assert t[0] == open[0] && t[|t| - 1] == close[|close| - 1];
    TrimUnchanged(t);
    PrefixOfConcat(open, u);
    assert t[..|marker|] == open[..|marker|];
    assert StripPrefix(t, open) == u;
    SuffixOfConcat(s, close);
    assert StripSuffix(u, close) == s;
  }

  /** A reply wrapped in exactly the fence the prompt forbids comes back
      as the text inside it, whatever that text is. */
  lemma FenceRoundTrip(s: string)
    ensures CleanReply(OpeningFence + s + ClosingFence) == s
  {
    assert OpeningFence[..|FenceMarker|] == FenceMarker;
    StripWrapped(s, FenceMarker, OpeningFence, ClosingFence);
  }

  /** Only one fence is removed from each end. */
  lemma OneFenceEachSide(s: string)
    ensures CleanReply(OpeningFence + OpeningFence + s + ClosingFence + ClosingFence)
      == OpeningFence + s + ClosingFence
  {
    var inner := OpeningFence + s + ClosingFence;
    assert OpeningFence + OpeningFence + s + ClosingFence + ClosingFence == OpeningFence + inner + ClosingFence;
    FenceRoundTrip(inner);
  }

  /** A bare fence without the `json` tag is left in place. */
  lemma BareFenceKept(s: string)
    ensures CleanReply("```\n" + s + "\n```") == "```\n" + s + "\n```"
  {
    var t := "```\n" + s + "\n```";
    assert t[0] == '`' && t[|t| - 1] == '`';
    assert !StartsWith(t, FenceMarker) by {
      assert t[3] == '\n';
      Mismatch(t, FenceMarker, 3);
    }
    CleanTrimmed(t);
  }

  /** With a CRLF line end after the tag the opening fence stays; the
      closing one still matches on its `\n` and goes, leaving the `\r`. */
  lemma CrlfFenceKeepsPrefix(s: string)
    ensures CleanReply("```json\r\n" + s + "\r\n```") == "```json\r\n" + s + "\r"
  {
    var kept := "```json\r\n" + s + "\r";
    var t := kept + ClosingFence;
    assert "```json\r\n" + s + "\r\n```" == t;
    assert t[0] == '`' && t[|t| - 1] == '`';
    assert StartsWith(t, FenceMarker) && !StartsWith(t, OpeningFence) by {
      assert t[..|FenceMarker|] == FenceMarker;
      assert t[7] == '\r';
      Mismatch(t, OpeningFence, 7);
    }
    assert EndsWith(t, ClosingFence) && t[..|t| - |ClosingFence|] == kept by {
      SuffixOfConcat(kept, ClosingFence);
    }
    CleanTrimmed(t);
  }

  /** `generateJSON(prompt)` once the model endpoint answered: a refused
      request fails with its status and text, unparsable content with
      `ParseError`; a reply without the `json` fence is parsed as trimmed,
      and any object returned is what the cleaned reply parses to. */
  function GenerateJson(reply: HttpReply<string>, parse: string -> Option<JsonObject>): (r: Result<JsonObject, Failure>)
    ensures reply.Refused? ==> r == Err(LlmApiError(reply.status, reply.text))
    ensures reply.Delivered? && r.Err? ==> r.error == ParseError
    ensures reply.Delivered? && !StartsWith(Trim(reply.body), FenceMarker) ==>
      (r.Ok? <==> parse(Trim(reply.body)).Some?) && (r.Ok? ==> Some(r.value) == parse(Trim(reply.body)))
    ensures reply.Delivered? ==> (r.Ok? <==> parse(CleanReply(reply.body)).Some?)
    ensures r.Ok? ==> reply.Delivered? && Some(r.value) == parse(CleanReply(reply.body))
  {
    match reply
    case Refused(status, text) => Err(LlmApiError(status, text))
    case Delivered(content) =>
      match parse(CleanReply(content))
      case None => Err(ParseError)
      case Some(obj) => Ok(obj)
  }

  /** A reply wrapped in the `json` fence is judged by what is inside it:
      the object that text parses to, or `ParseError`. */
  lemma FencedReplyParsed(s: string, parse: string -> Option<JsonObject>)
    ensures var r := GenerateJson(Delivered(OpeningFence + s + ClosingFence), parse);
      && (r.Ok? <==> parse(s).Some?)
      && (r.Ok? ==> Some(r.value) == parse(s))
      && (r.Err? ==> r.error == ParseError)
  {
    FenceRoundTrip(s);
  }

  // ---------------------------------------------------------------------
  // Stage 3: frame counts and the write
  // ---------------------------------------------------------------------

  const OpeningFrames: real := 150.0
  const SlideFrames: real := 300.0
  const EndingFrames: real := 150.0

  /** Overwrite the three frame fields with the fixed counts, keeping every
      other field the model produced. */
  function WithFrames(obj: JsonObject): (doc: JsonObject)
    ensures doc.Keys == obj.Keys + {"openingFrames", "slideFrames", "endingFrames"}
    ensures doc["openingFrames"] == JNumber(OpeningFrames)
    ensures doc["slideFrames"] == JNumber(SlideFrames)
    ensures doc["endingFrames"] == JNumber(EndingFrames)
    ensures forall k :: k in obj && k != "openingFrames" && k != "slideFrames" && k != "endingFrames" ==>
      doc[k] == obj[k]
  {
    obj["openingFrames" := JNumber(OpeningFrames)]["slideFrames" := JNumber(SlideFrames)]["endingFrames" := JNumber(EndingFrames)]
  }

  datatype Stage = SearchCall | LlmCall | FileWrite

  /** What a run did: the external calls in order, the document written
      (if any) and the exit code. */
  datatype Run = Run(calls: seq<Stage>, written: Option<JsonObject>, exitCode: int)

  /** `main()`: the three stages in order; the first failure ends the run
      with exit code 1 before anything is written. */
  function Main(search: HttpReply<SearchBody>, llm: string -> HttpReply<string>, parse: string -> Option<JsonObject>): (run: Run)
    ensures run.exitCode == 0 || run.exitCode == 1
    ensures run.exitCode == 0 <==> run.written.Some?
    ensures run.written.Some? <==> FileWrite in run.calls
    ensures |run.calls| > 0 && run.calls[0] == SearchCall
    ensures FileWrite in run.calls ==> run.calls == [SearchCall, LlmCall, FileWrite]
    ensures FetchNewsStage(search).Ok? ==> |run.calls| >= 2 && run.calls[1] == LlmCall
  {
    match FetchNewsStage(search)
    case Err(_) => Run([SearchCall], None, 1)
    case Ok(prompt) =>
      match GenerateJson(llm(prompt), parse)
      case Err(_) => Run([SearchCall, LlmCall], None, 1)
      case Ok(obj) => Run([SearchCall, LlmCall, FileWrite], Some(WithFrames(obj)), 0)
  }

  /** The document is written exactly when the search produced a prompt and
      the model's reply parsed; it then holds the fixed frame counts and
      otherwise the model's fields. */
  lemma WriteOnlyAfterSuccess(search: HttpReply<SearchBody>, llm: string -> HttpReply<string>, parse: string -> Option<JsonObject>)
    ensures var run := Main(search, llm, parse);
      && (run.written.Some? <==>
            FetchNewsStage(search).Ok? && GenerateJson(llm(FetchNewsStage(search).value), parse).Ok?)
      && (run.written.Some? ==>
            var obj := GenerateJson(llm(FetchNewsStage(search).value), parse).value;
            && run.written.value["openingFrames"] == JNumber(150.0)
            && run.written.value["slideFrames"] == JNumber(300.0)
            && run.written.value["endingFrames"] == JNumber(150.0)
            && (forall k :: k in obj && k != "openingFrames" && k != "slideFrames" && k != "endingFrames"
                  ==> run.written.value[k] == obj[k]))
  {
  }

  /** A search that fails, refused or with no results, ends the run before
      the model is asked anything, with exit code 1 and nothing written. */
  lemma FailedSearchStopsBeforeModel(search: HttpReply<SearchBody>, llm: string -> HttpReply<string>, parse: string -> Option<JsonObject>)
    requires FetchNewsStage(search).Err?
    ensures Main(search, llm, parse) == Run([SearchCall], None, 1)
  {
  }
}

=== FILE: js.dfy ===
/** The JavaScript built-ins the pipeline and the compositions rely on:
    `String.prototype.trim`, `startsWith`, `split` on a one-character
    separator, the global `parseInt` without a radix, the rendering of a
    non-negative integer Number as text, and the truncating `%` operator.
    Strings are sequences of characters; NaN is `None`. */
module Js {
  import opened Outcomes

  // ---------------------------------------------------------------------
  // Whitespace and trimming
  // ---------------------------------------------------------------------

  /** The WhiteSpace and LineTerminator code points of ECMA-262
      (section 12.2 and 12.3), which `trim` and `parseInt` skip. */
  predicate IsSpace(c: char) {
    || c == '\t' || c == '\n' || c == '\U{000B}' || c == '\U{000C}' || c == '\r'
    || c == ' ' || c == '\U{00A0}' || c == '\U{1680}'
    || ('\U{2000}' <= c <= '\U{200A}')
    || c == '\U{2028}' || c == '\U{2029}' || c == '\U{202F}' || c == '\U{205F}'
    || c == '\U{3000}' || c == '\U{FEFF}'
  }

  /** Drops leading whitespace: the result is the suffix of `s` that starts
      at its first non-space character. */
  function TrimStart(s: string): (r: string)
    ensures |r| <= |s| && r == s[|s| - |r|..]
    ensures |r| > 0 ==> !IsSpace(r[0])
  {
    if |s| > 0 && IsSpace(s[0]) then TrimStart(s[1..]) else s
  }

  /** Everything `TrimStart` drops is whitespace. */
  lemma {:induction false} TrimStartDropsSpaces(s: string)
    ensures forall i :: 0 <= i < |s| - |TrimStart(s)| ==> IsSpace(s[i])
  {
    if |s| > 0 && IsSpace(s[0]) {
      TrimStartDropsSpaces(s[1..]);
      forall i | 1 <= i < |s| - |TrimStart(s)| ensures IsSpace(s[i]) {
        assert s[i] == s[1..][i - 1];
      }
    }
  }

  /** Drops trailing whitespace: the result is the prefix of `s` that ends
      at its last non-space character. */
  function TrimEnd(s: string): (r: string)
    ensures |r| <= |s| && r == s[..|r|]
    ensures |r| > 0 ==> !IsSpace(r[|r| - 1])
  {
    if |s| > 0 && IsSpace(s[|s| - 1]) then TrimEnd(s[..|s| - 1]) else s
  }

  /** Everything `TrimEnd` drops is whitespace. */
  lemma {:induction false} TrimEndDropsSpaces(s: string)
    ensures forall i :: |TrimEnd(s)| <= i < |s| ==> IsSpace(s[i])
  {
    if |s| > 0 && IsSpace(s[|s| - 1]) {
      TrimEndDropsSpaces(s[..|s| - 1]);
      forall i | |TrimEnd(s)| <= i < |s| - 1 ensures IsSpace(s[i]) {
        assert s[i] == s[..|s| - 1][i];
      }
    }
  }

  /** `String.prototype.trim`. What it keeps and what it drops is stated by
      `TrimIsInfix`. */
  function Trim(s: string): (r: string)
    ensures |r| <= |s|
    ensures |r| > 0 ==> !IsSpace(r[0]) && !IsSpace(r[|r| - 1])
  {
    var u := TrimStart(s);
    var r := TrimEnd(u);
    assert |r| > 0 ==> r[0] == u[0];
    r
  }

  /** `trim` keeps an infix of `s`: the one that starts after the leading
      spaces. */
  lemma TrimIsInfix(s: string)
    ensures var r := Trim(s);
      var k := |s| - |TrimStart(s)|;
      k + |r| <= |s| && r == s[k..k + |r|]
  {
    var u := TrimStart(s);
    var k := |s| - |u|;
    var r := TrimEnd(u);
    assert r == u[..|r|] && u == s[k..];
    assert s[k..][..|r|] == s[k..k + |r|];
  }

  /** What `trim` drops on either side of the infix it keeps is whitespace. */
  lemma TrimDropsSpaces(s: string)
    ensures var r := Trim(s);
      var k := |s| - |TrimStart(s)|;
      && (forall i :: 0 <= i < k ==> IsSpace(s[i]))
      && (forall i :: k + |r| <= i < |s| ==> IsSpace(s[i]))
  {
    TrimStartDropsSpaces(s);
    TrimDropsTrailingSpaces(s);
  }

  lemma TrimDropsTrailingSpaces(s: string)
    ensures forall i :: |s| - |TrimStart(s)| + |Trim(s)| <= i < |s| ==> IsSpace(s[i])
  {
    var u := TrimStart(s);
    var k := |s| - |u|;
    TrimEndDropsSpaces(u);
    forall i | k + |TrimEnd(u)| <= i < |s| ensures IsSpace(s[i]) {
      assert s[i] == u[i - k];
    }
  }

  /** A string that neither starts nor ends with a space is its own trim. */
  lemma TrimUnchanged(s: string)
    requires |s| > 0 ==> !IsSpace(s[0]) && !IsSpace(s[|s| - 1])
    ensures Trim(s) == s
  {
  }

  /** Trimming twice is trimming once. */
  lemma TrimIdempotent(s: string)
    ensures Trim(Trim(s)) == Trim(s)
  {
    TrimUnchanged(Trim(s));
  }

  predicate StartsWith(s: string, prefix: string) {
    |prefix| <= |s| && s[..|prefix|] == prefix
  }

  predicate EndsWith(s: string, suffix: string) {
    |suffix| <= |s| && s[|s| - |suffix|..] == suffix
  }

  // ---------------------------------------------------------------------
  // split / join on a one-character separator
  // ---------------------------------------------------------------------

  /** `parts.join(sep)` */
  function Join(parts: seq<string>, sep: char): string
    requires |parts| >= 1
  {
    if |parts| == 1 then parts[0] else parts[0] + [sep] + Join(parts[1..], sep)
  }

  /** `s.split(sep)`: the maximal separator-free pieces of `s`, in order;
      the empty string splits into one empty piece. That joining the pieces
      gives `s` back is `JoinSplit`. */
  function Split(s: string, sep: char): (parts: seq<string>)
    ensures |parts| >= 1
    ensures forall i :: 0 <= i < |parts| ==> sep !in parts[i]
  {
    if |s| == 0 then [""]
    else
      var rest := Split(s[1..], sep);
      if s[0] == sep then
        assert ([""] + rest)[1..] == rest;
        [""] + rest
      else
        var parts := [[s[0]] + rest[0]] + rest[1..];
        assert parts[1..] == rest[1..];
        parts
  }

  /** Joining the pieces of a split with the separator gives back the
      string. */
  lemma {:induction false} JoinSplit(s: string, sep: char)
    ensures Join(Split(s, sep), sep) == s
    decreases |s|
  {
    if |s| > 0 {
      var rest := Split(s[1..], sep);
      JoinSplit(s[1..], sep);
      if s[0] == sep {
        var parts := [""] + rest;
        assert parts[0] == "" && parts[1..] == rest;
        assert Join(parts, sep) == "" + [sep] + Join(rest, sep);
        assert [s[0]] + s[1..] == s;
      } else {
        var parts := [[s[0]] + rest[0]] + rest[1..];
        assert parts[0] == [s[0]] + rest[0] && parts[1..] == rest[1..];
        if |rest| > 1 {
          assert Join(rest, sep) == rest[0] + [sep] + Join(rest[1..], sep);
          assert Join(parts, sep) == [s[0]] + rest[0] + [sep] + Join(rest[1..], sep);
        }
        assert [s[0]] + s[1..] == s;
      }
    }
  }

  /** Splitting a string that starts with a separator-free piece. */
  lemma {:induction false} SplitAfterPiece(p: string, t: string, sep: char)
    requires sep !in p
    ensures Split(p + t, sep) == [p + Split(t, sep)[0]] + Split(t, sep)[1..]
    decreases |p|
  {
    if |p| > 0 {
      SplitAfterPiece(p[1..], t, sep);
      assert (p + t)[1..] == p[1..] + t;
      assert (p + t)[0] == p[0];
      assert [p[0]] + (p[1..] + Split(t, sep)[0]) == p + Split(t, sep)[0];
    } else {
      var rest := Split(t, sep);
      assert p + t == t && p + rest[0] == rest[0];
      assert [rest[0]] + rest[1..] == rest;
    }
  }

  /** `split` undoes `join` whenever no piece contains the separator. */
  lemma {:induction false} SplitJoin(parts: seq<string>, sep: char)
    requires |parts| >= 1
    requires forall i :: 0 <= i < |parts| ==> sep !in parts[i]
    ensures Split(Join(parts, sep), sep) == parts
    decreases |parts|
  {
    if |parts| == 1 {
      SplitAfterPiece(parts[0], "", sep);
      assert parts[0] + "" == parts[0];
    } else {
      SplitJoin(parts[1..], sep);
      SplitAfterSeparator(parts[0], Join(parts[1..], sep), parts[1..], sep);
      assert [parts[0]] + parts[1..] == parts;
    }
  }

  /** A separator-free piece, a separator, and text that splits into
      `rest`, split into the piece followed by `rest`. */
  lemma SplitAfterSeparator(p: string, tail: string, rest: seq<string>, sep: char)
    requires sep !in p && Split(tail, sep) == rest
    ensures Split(p + [sep] + tail, sep) == [p] + rest
  {
    var t := [sep] + tail;
    assert t[0] == sep && t[1..] == tail;
    var st := Split(t, sep);
    assert st == [""] + rest;
    assert st[0] == "" && st[1..] == rest;
    SplitAfterPiece(p, t, sep);
    assert p + [sep] + tail == p + t;
    assert p + "" == p;
  }

  // ---------------------------------------------------------------------
  // Digits, Number-to-text and parseInt
  // ---------------------------------------------------------------------

  /** The value of `c` as a digit of any radix up to 36; 36 when `c` is not
      a letter or a decimal digit. */
  function DigitValue(c: char): (d: nat)
    ensures d <= 36
  {
    if '0' <= c <= '9' then (c as int) - ('0' as int)
    else if 'a' <= c <= 'z' then (c as int) - ('a' as int) + 10
    else if 'A' <= c <= 'Z' then (c as int) - ('A' as int) + 10
    else 36
  }

  predicate IsDigitIn(c: char, radix: nat) {
    DigitValue(c) < radix
  }

  function DigitChar(d: nat): (c: char)
    requires d < 10
    ensures DigitValue(c) == d && '0' <= c <= '9'
  {
    ((d + '0' as int) as char)
  }

  /** The value of a digit string, most significant digit first. */
  function DigitsValue(ds: string, radix: nat): nat {
    if |ds| == 0 then 0
    else DigitsValue(ds[..|ds| - 1], radix) * radix + DigitValue(ds[|ds| - 1])
  }

  /** How JavaScript renders a non-negative integer Number as text (as in a
      template literal): decimal digits, no leading zero. */
  function NatToDecimal(n: nat): (r: string)
    ensures |r| >= 1
    ensures forall i :: 0 <= i < |r| ==> '0' <= r[i] <= '9'
    ensures r[0] == '0' ==> n == 0
    decreases n
  {
    if n < 10 then [DigitChar(n)] else NatToDecimal(n / 10) + [DigitChar(n % 10)]
  }

  /** Reading the digits back yields the number: rendering is injective. */
  lemma {:induction false} DecimalValue(n: nat)
    ensures DigitsValue(NatToDecimal(n), 10) == n
    decreases n
  {
    if n >= 10 {
      var ds := NatToDecimal(n);
      DecimalValue(n / 10);
      assert ds[..|ds| - 1] == NatToDecimal(n / 10);
    }
  }

  /** The longest prefix of `s` made of digits of the given radix. */
  function DigitPrefix(s: string, radix: nat): (r: string)
    ensures |r| <= |s| && r == s[..|r|]
    ensures forall i :: 0 <= i < |r| ==> IsDigitIn(r[i], radix)
    ensures |r| < |s| ==> !IsDigitIn(s[|r|], radix)
  {
    if |s| > 0 && IsDigitIn(s[0], radix) then [s[0]] + DigitPrefix(s[1..], radix) else ""
  }

  lemma {:induction false} DigitPrefixOf(ds: string, rest: string, radix: nat)
    requires forall i :: 0 <= i < |ds| ==> IsDigitIn(ds[i], radix)
    requires |rest| > 0 ==> !IsDigitIn(rest[0], radix)
    ensures DigitPrefix(ds + rest, radix) == ds
    decreases |ds|
  {
    if |ds| > 0 {
      DigitPrefixOf(ds[1..], rest, radix);
      assert (ds + rest)[1..] == ds[1..] + rest;
    } else {
      assert ds + rest == rest;
    }
  }

  /** The unsigned part of `parseInt`: a `0x` or `0X` prefix selects
      hexadecimal, anything else decimal, and the longest run of digits of
      that radix is converted; no digit gives NaN (`None`). */
  function ParseMagnitude(u: string): Option<nat> {
    var hex := |u| >= 2 && u[0] == '0' && (u[1] == 'x' || u[1] == 'X');
    var radix := if hex then 16 else 10;
    var digits := DigitPrefix(if hex then u[2..] else u, radix);
    if |digits| == 0 then None else Some(DigitsValue(digits, radix))
  }

  /** `parseInt` after the leading whitespace: one optional sign, then the
      magnitude. */
  function ParseSigned(t: string): Option<int> {
    var negative := |t| > 0 && t[0] == '-';
    var u := if |t| > 0 && (t[0] == '-' || t[0] == '+') then t[1..] else t;
    match ParseMagnitude(u)
    case None => None
    case Some(m) => Some(if negative then -(m as int) else m as int)
  }

  /** The global `parseInt(s)` with no radix argument (ECMA-262 section
      19.2.5): skip leading whitespace, take one optional sign, read a `0x`
      or `0X` prefix as hexadecimal and decimal otherwise, and convert the
      longest run of digits; NaN (here `None`) when there is no digit. */
  function ParseInt(s: string): Option<int> {
    ParseSigned(TrimStart(s))
  }

  /** Leading whitespace does not change what `parseInt` reads. */
  lemma ParseIntSkipsSpace(c: char, s: string)
    requires IsSpace(c)
    ensures ParseInt([c] + s) == ParseInt(s)
  {
    assert ([c] + s)[1..] == s;
  }

  /** After a sign, `parseInt` reads the magnitude: negated after a minus,
      as it is after a plus. */
  lemma ParseIntSign(sign: char, u: string)
    requires sign == '-' || sign == '+'
    ensures ParseMagnitude(u).None? ==> ParseInt([sign] + u).None?
    ensures ParseMagnitude(u).Some? ==>
      ParseInt([sign] + u) == Some(if sign == '-' then -(ParseMagnitude(u).value as int) else ParseMagnitude(u).value)
  {
    var t := [sign] + u;
    assert t[0] == sign && !IsSpace(t[0]);
    assert t[1..] == u;
  }

  /** Text starting with a digit is read by `parseInt` as its magnitude. */
  lemma ParseIntOfDigits(t: string)
    requires |t| > 0 && '0' <= t[0] <= '9'
    ensures ParseMagnitude(t).None? ==> ParseInt(t).None?
    ensures ParseMagnitude(t).Some? ==> ParseInt(t) == Some(ParseMagnitude(t).value as int)
  {
    assert !IsSpace(t[0]);
  }

  /** The magnitude of rendered digits followed by text that does not start
      with a letter or digit is the rendered number. */
  lemma MagnitudeOfDecimal(n: nat, rest: string)
    requires |rest| > 0 ==> DigitValue(rest[0]) == 36
    ensures ParseMagnitude(NatToDecimal(n) + rest) == Some(n)
  {
    var ds := NatToDecimal(n);
    var t := ds + rest;
    assert !(|t| >= 2 && t[0] == '0' && (t[1] == 'x' || t[1] == 'X')) by {
      if |t| >= 2 && t[0] == '0' {
        assert n == 0 && |ds| == 1;
        assert t[1] == rest[0];
      }
    }
    forall i | 0 <= i < |ds| ensures IsDigitIn(ds[i], 10) {
    }
    DigitPrefixOf(ds, rest, 10);
    DecimalValue(n);
  }

  /** `parseInt` reads back what `NatToDecimal` wrote, also when the digits
      are followed by text that does not start with a letter or digit. */
  lemma ParseIntOfDecimal(n: nat, rest: string)
    requires |rest| > 0 ==> DigitValue(rest[0]) == 36
    ensures ParseInt(NatToDecimal(n) + rest) == Some(n)
  {
    var t := NatToDecimal(n) + rest;
    assert t[0] == NatToDecimal(n)[0];
    ParseIntOfDigits(t);
    MagnitudeOfDecimal(n, rest);
  }

  // ---------------------------------------------------------------------
  // Arithmetic
  // ---------------------------------------------------------------------

  /** `a` and `b` leave the same remainder on division by `m`. */
  predicate Congruent(a: int, b: int, m: int)
    requires m != 0
  {
    (a - b) % m == 0
  }

  /** JavaScript's `a % b` on integers: the remainder of division truncated
      toward zero, which takes the sign of the dividend. */
  function Rem(a: int, b: int): (r: int)
    requires b != 0
    ensures (a - r) % b == 0
    ensures a >= 0 ==> 0 <= r < (if b > 0 then b else -b)
    ensures a < 0 ==> -(if b > 0 then b else -b) < r <= 0
  {
    if a >= 0 then
      MultipleDifference(a, b);
      a % b
    else
      MultipleDifference(-a, b);
      NegatedMultiple(-a - (-a) % b, b);
      -((-a) % b)
  }

  lemma MultipleDifference(a: int, b: int)
    requires b != 0
    ensures (a - a % b) % b == 0
  {
    var q := a / b;
    assert a - a % b == q * b;
    MultipleMod(q, b);
  }

  lemma NegatedMultiple(x: int, b: int)
    requires b != 0 && x % b == 0
    ensures (-x) % b == 0
  {
    var q := x / b;
    assert x == q * b;
    assert -x == (-q) * b;
    MultipleMod(-q, b);
  }

  lemma MultipleMod(q: int, b: int)
    requires b != 0
    ensures (q * b) % b == 0
  {
    var x := q * b;
    var d := x / b - q;
    assert d * b + x % b == 0;
    if d > 0 {
      assert d * b >= b || d * b >= -b;
    } else if d < 0 {
      assert d * b <= -b || d * b <= b;
    }
  }
}

=== FILE: news_report.dfy ===
/** The `NewsReport` composition (src/compositions/NewsReport.tsx): how the
    opening, the slides and the two-second ending are placed on the frame
    axis of a video of `durationInFrames` frames at `fps` frames per second,
    and what each slide scene shows. */
module NewsReport {
  import opened Outcomes
  import opened Js
  import opened Timeline

  datatype Slide = Slide(heading: string, summary: string, image: Option<string>, source: Option<string>)

  /** The `Sequence` placements of one report. */
  datatype Layout = Layout(opening: Span, slides: seq<Span>, ending: Span) {

    /** All scenes in playing order. */
    function Scenes(): seq<Span> {
      [opening] + slides + [ending]
    }
  }

  /** What a slide scene shows besides its heading and summary text. */
  datatype SlideView = SlideView(caption: string, textWidthPercent: int, showsImage: bool, showsSource: bool)

  /** The ending scene's length: two seconds. */
  function EndingFrames(fps: int): int {
    fps * 2
  }

  /** `Math.floor(remainingFrames * 0.15)`, reading the double 0.15 as the
      exact fraction 15/100. */
  function OpeningShare(remaining: int): (opening: int)
    ensures 100 * opening <= 15 * remaining < 100 * opening + 100
    ensures remaining >= 0 ==> 0 <= opening <= remaining
  {
    (remaining * 15) / 100
  }

  /** `Math.floor(a / n)` for a positive count `n` lies within one slot of
      the exact quotient. */
  lemma FloorDivision(a: int, n: int)
    requires n > 0
    ensures (a / n) * n <= a < (a / n) * n + n
  {
  }

  /** The `slides.map` placement: `count` slots of length `slot`, the slot
      at position `i` starting at `from + i * slot`. */
  function Slots(from: int, slot: int, count: nat): (s: seq<Span>)
    ensures |s| == count
    ensures forall i :: 0 <= i < count ==> s[i].duration == slot
    ensures count > 0 ==> s[0].from == from && s[count - 1].End() == from + count * slot
    ensures forall i :: 0 < i < count ==> s[i].from == s[i - 1].End()
  {
    if count == 0 then []
    else
      var s := Slots(from, slot, count - 1);
      assert count > 1 ==> s[count - 2].End() == from + (count - 1) * slot;
      assert from + (count - 1) * slot + slot == from + count * slot;
      s + [Span(from + (count - 1) * slot, slot)]
  }

  /** Slot `i` starts `i` slot lengths after the first. */
  lemma {:induction false} SlotStart(from: int, slot: int, count: nat, i: nat)
    requires i < count
    ensures Slots(from, slot, count)[i] == Span(from + i * slot, slot)
    decreases i
  {
    if i > 0 {
      SlotStart(from, slot, count, i - 1);
      assert (i - 1) * slot + slot == i * slot;
    }
  }

  /** The placement for a given opening length. With no slides JavaScript
      divides by zero and every later start frame is NaN; there is then no
      layout. */
  function LayoutWith(durationInFrames: int, fps: int, slideCount: nat, openingDuration: int): (r: Option<Layout>)
    ensures r.None? <==> slideCount == 0
    ensures r.Some? ==>
      var l := r.value;
      var budget := durationInFrames - EndingFrames(fps) - openingDuration;
      && l.opening == Span(0, openingDuration)
      && |l.slides| == slideCount
      && l.ending.duration == 2 * fps
      && (forall i :: 0 <= i < slideCount ==> l.slides[i].duration == l.slides[0].duration)
      && l.slides[0].duration * slideCount <= budget < (l.slides[0].duration + 1) * slideCount
      && l.slides[0].from == l.opening.End()
      && (forall i :: 0 < i < slideCount ==> l.slides[i].from == l.slides[i - 1].End())
      && l.ending.from == l.slides[slideCount - 1].End()
      && l.ending.End() <= durationInFrames < l.ending.End() + slideCount
  {
    if slideCount == 0 then None
    else
      var endingFrames := EndingFrames(fps);
      var remainingFrames := durationInFrames - endingFrames;
      var slideTotalFrames := remainingFrames - openingDuration;
      var slideDuration := slideTotalFrames / slideCount;
      FloorDivision(slideTotalFrames, slideCount);
      var slides := Slots(openingDuration, slideDuration, slideCount);
      Some(Layout(Span(0, openingDuration), slides, Span(openingDuration + slideCount * slideDuration, endingFrames)))
  }

  /** The placement the composition computes: the opening takes 15% of what
      the ending leaves, the slides share the rest equally. */
  function ComputeLayout(durationInFrames: int, fps: int, slideCount: nat): (r: Option<Layout>)
    ensures r.None? <==> slideCount == 0
    ensures r.Some? ==>
      && 100 * r.value.opening.duration <= 15 * (durationInFrames - 2 * fps) < 100 * r.value.opening.duration + 100
      && r.value.opening.from == 0
      && r.value.ending.duration == 2 * fps
  {
    LayoutWith(durationInFrames, fps, slideCount, OpeningShare(durationInFrames - EndingFrames(fps)))
  }

  /** Slide `i` occupies the frames from `i` slide lengths after the
      opening ends up to `i + 1` slide lengths after it. */
  lemma SlideInterval(durationInFrames: int, fps: int, slideCount: nat, openingDuration: int, i: nat)
    requires slideCount > 0 && i < slideCount
    ensures var l := LayoutWith(durationInFrames, fps, slideCount, openingDuration).value;
      var d := (durationInFrames - EndingFrames(fps) - openingDuration) / slideCount;
      && l.slides[i].from == openingDuration + i * d
      && l.slides[i].End() == openingDuration + (i + 1) * d
  {
    var d := (durationInFrames - EndingFrames(fps) - openingDuration) / slideCount;
    SlotStart(openingDuration, d, slideCount, i);
    assert i * d + d == (i + 1) * d;
  }

  lemma QuotientSign(d: int, n: int, budget: int)
    requires n > 0 && 0 <= budget < (d + 1) * n
    ensures d >= 0
  {
    if d < 0 {
      NonPositiveProduct(d + 1, n);
    }
  }

  lemma {:induction false} NonPositiveProduct(a: int, n: nat)
    requires a <= 0
    ensures a * n <= 0
  {
    if n > 0 {
      NonPositiveProduct(a, n - 1);
      assert a * n == a * (n - 1) + a;
    }
  }

  /** When the opening fits in what the ending leaves, the scenes tile the
      video from frame 0: the ending finishes on or before the last frame,
      and fewer frames than there are slides stay unused. */
  lemma LayoutFits(durationInFrames: int, fps: int, slideCount: nat, openingDuration: int)
    requires slideCount > 0 && fps >= 0
    requires 0 <= openingDuration <= durationInFrames - EndingFrames(fps)
    ensures var l := LayoutWith(durationInFrames, fps, slideCount, openingDuration).value;
      && Tiles(l.Scenes())
      && Start(l.Scenes()) == 0
      && Finish(l.Scenes()) <= durationInFrames < Finish(l.Scenes()) + slideCount
  {
    var l := LayoutWith(durationInFrames, fps, slideCount, openingDuration).value;
    var d := l.slides[0].duration;
    var budget := durationInFrames - EndingFrames(fps) - openingDuration;
    QuotientSign(d, slideCount, budget);
    ScenesTile(l);
  }

  /** A layout whose slides follow the opening and each other without gaps,
      and whose ending follows the last slide, tiles its frames. */
  lemma ScenesTile(l: Layout)
    requires |l.slides| > 0 && l.opening.duration >= 0 && l.ending.duration >= 0
    requires forall i :: 0 <= i < |l.slides| ==> l.slides[i].duration >= 0
    requires l.slides[0].from == l.opening.End()
    requires forall i :: 0 < i < |l.slides| ==> l.slides[i].from == l.slides[i - 1].End()
    requires l.ending.from == l.slides[|l.slides| - 1].End()
    ensures Tiles(l.Scenes())
  {
    var scenes := l.Scenes();
    var n := |l.slides|;
    assert |scenes| == n + 2;
    forall i | 0 < i < |scenes| ensures scenes[i].from == scenes[i - 1].End() {
      if i == 1 {
      } else if i <= n {
        assert scenes[i] == l.slides[i - 1] && scenes[i - 1] == l.slides[i - 2];
      } else {
        assert scenes[i] == l.ending && scenes[i - 1] == l.slides[n - 1];
      }
    }
    forall i | 0 <= i < |scenes| ensures scenes[i].duration >= 0 {
      if 0 < i <= n {
        assert scenes[i] == l.slides[i - 1];
      }
    }
  }

  /** With the computed opening, every frame of the video before the ending
      finishes belongs to exactly one scene, and the report never runs past
      the video. */
  lemma ComputedLayoutPartitions(durationInFrames: int, fps: int, slideCount: nat, frame: int)
    requires slideCount > 0 && fps >= 0
    requires durationInFrames >= EndingFrames(fps)
    ensures var l := ComputeLayout(durationInFrames, fps, slideCount).value;
      && l.ending.End() <= durationInFrames
      && (0 <= frame < l.ending.End() ==>
            exists i :: 0 <= i < |l.Scenes()| && l.Scenes()[i].Contains(frame))
      && (forall i, j :: 0 <= i < j < |l.Scenes()| ==>
            !(l.Scenes()[i].Contains(frame) && l.Scenes()[j].Contains(frame)))
  {
    var opening := OpeningShare(durationInFrames - EndingFrames(fps));
    LayoutFits(durationInFrames, fps, slideCount, opening);
    var scenes := ComputeLayout(durationInFrames, fps, slideCount).value.Scenes();
    if 0 <= frame < Finish(scenes) {
      var k := SpanAt(scenes, frame);
    }
    forall i, j | 0 <= i < j < |scenes| && scenes[i].Contains(frame)
      ensures !scenes[j].Contains(frame)
    {
      TilesOrdered(scenes, i, j);
    }
  }

  /** JavaScript truthiness of an optional string. */
  predicate Truthy(s: Option<string>) {
    s.Some? && s.value != ""
  }

  /** The slide scene at position `index` (0-based): its number caption, the
      width of its text column, and whether the image and source appear. */
  function SlideScene(slide: Slide, index: nat): (v: SlideView)
    ensures v.showsImage <==> slide.image.Some? && |slide.image.value| > 0
    ensures v.textWidthPercent == (if v.showsImage then 70 else 100)
    ensures v.showsSource <==> slide.source.Some? && |slide.source.value| > 0
    ensures v.caption == "NEWS " + NatToDecimal(index + 1)
    ensures StartsWith(v.caption, "NEWS ") && ParseInt(v.caption[5..]) == Some(index + 1)
  {
    var hasImage := Truthy(slide.image);
    var number := NatToDecimal(index + 1);
    ParseIntOfDecimal(index + 1, "");
    assert number + "" == number;
    assert ("NEWS " + number)[5..] == number;
    SlideView("NEWS " + number, if hasImage then 70 else 100, hasImage, Truthy(slide.source))
  }

  /** Slides are numbered from 1, and no two positions share a caption. */
  lemma SlideCaptionsDistinct(a: Slide, b: Slide, i: nat, j: nat)
    ensures SlideScene(a, i).caption == SlideScene(b, j).caption <==> i == j
  {
    CaptionsDiffer("NEWS ", i + 1, j + 1);
  }

  /** Two labels with a common prefix and rendered numbers agree exactly
      when the numbers do. */
  lemma CaptionsDiffer(prefix: string, m: nat, n: nat)
    ensures prefix + NatToDecimal(m) == prefix + NatToDecimal(n) <==> m == n
  {
    if prefix + NatToDecimal(m) == prefix + NatToDecimal(n) {
      assert (prefix + NatToDecimal(m))[|prefix|..] == NatToDecimal(m);
      assert (prefix + NatToDecimal(n))[|prefix|..] == NatToDecimal(n);
      DecimalValue(m);
      DecimalValue(n);
    }
  }

  /** The whole report: the scene placements and, in order, the views of
      the slides placed in them. */
  datatype Report = Report(layout: Layout, views: seq<SlideView>)

  function Render(durationInFrames: int, fps: int, slides: seq<Slide>): (r: Option<Report>)
    ensures r.None? <==> |slides| == 0
    ensures r.Some? ==> r.value.layout == ComputeLayout(durationInFrames, fps, |slides|).value
    ensures r.Some? ==> |r.value.views| == |r.value.layout.slides| == |slides|
    ensures r.Some? ==> forall i :: 0 <= i < |slides| ==>
      && r.value.views[i].caption == "NEWS " + NatToDecimal(i + 1)
      && (r.value.views[i].showsImage <==> Truthy(slides[i].image))
      && (r.value.views[i].showsSource <==> Truthy(slides[i].source))
    ensures r.Some? ==> forall i :: 0 <= i < |slides| ==> r.value.views[i] == SlideScene(slides[i], i)
  {
    match ComputeLayout(durationInFrames, fps, |slides|)
    case None => None
    case Some(l) => Some(Report(l, seq(|slides|, i requires 0 <= i < |slides| => SlideScene(slides[i], i))))
  }

  /** A rendered report never runs past the video, and every frame before
      its ending finishes shows exactly one scene. */
  lemma RenderedReportPartitions(durationInFrames: int, fps: int, slides: seq<Slide>, frame: int)
    requires |slides| > 0 && fps >= 0
    requires durationInFrames >= EndingFrames(fps)
    ensures Render(durationInFrames, fps, slides).Some?
    ensures var l := Render(durationInFrames, fps, slides).value.layout;
      && l.ending.End() <= durationInFrames
      && (0 <= frame < l.ending.End() ==>
            exists i :: 0 <= i < |l.Scenes()| && l.Scenes()[i].Contains(frame))
      && (forall i, j :: 0 <= i < j < |l.Scenes()| ==>
            !(l.Scenes()[i].Contains(frame) && l.Scenes()[j].Contains(frame)))
  {
    ComputedLayoutPartitions(durationInFrames, fps, |slides|, frame);
  }
}

=== FILE: outcomes.dfy ===
/** Optional values and success/error results used throughout the model.
    `None` stands for JavaScript's `undefined` (or NaN, where noted), and
    `Err` for a thrown exception. */
module Outcomes {

  datatype Option<+T> = None | Some(value: T) {

    /** The default-parameter rule of JavaScript: the default is used only
        when the value is absent. */
    function GetOr(default: T): T {
      match this
      case Some(v) => v
      case None => default
    }
  }

  datatype Result<+T, +E> = Ok(value: T) | Err(error: E)
}

=== FILE: prompt_text.dfy ===
/** The fixed text of the prompt fetch-news.ts sends to the language model:
    the request before the numbered news entries and the output-format block
    after them. */
module PromptText {
  const Header: string :=
    "以下の最新ニュース情報をもとに、YouTubeショート動画（縦型）用の原稿を作成してください。JSON形式で出力してください。\n\n【ニュース情報】\n"

  const Footer: string :=
    "\n【出力形式】\n"
    + "以下のJSONフォーマットで、\"\\`\\`\\`json\" などのマークダウンを含めず、純粋なJSONテキストのみを出力してください。\n"
    + "音声読み上げ（TTS）に使用するため、読みやすい日本語にしてください。\n"
    + "{\n"
    + "    \"themeColor\": \"#00FFaa\",\n"
    + "    \"openingText\": \"AI最新ニュース！本日の注目トピックをお届けします。\",\n"
    + "    \"newsTitle\": \"ニュースのメインタイトル（短く）\",\n"
    + "    \"newsSummary\": \"ニュースの要約（簡潔に、100文字程度）\",\n"
    + "    \"endingText\": \"チャンネル登録をお願いします！\"\n"
    + "}"
}

=== FILE: root.dfy ===
/** The composition registry (src/Root.tsx): the date-derived image index
    and the concrete settings the two compositions are registered with. */
module Root {
  import opened Outcomes
  import opened Js
  import opened Timeline
  import NewsReport
  import SingleNews

  // ---------------------------------------------------------------------
  // getImageIndex
  // ---------------------------------------------------------------------

  /** `dateStr.split('.')[2] || '1'`: the third dot-separated component, or
      "1" when it is missing or empty. */
  function DayText(dateStr: string): (t: string)
    ensures |t| > 0 && '.' !in t
    ensures |Split(dateStr, '.')| > 2 && Split(dateStr, '.')[2] != "" ==> t == Split(dateStr, '.')[2]
    ensures !(|Split(dateStr, '.')| > 2 && Split(dateStr, '.')[2] != "") ==> t == "1"
  {
    var parts := Split(dateStr, '.');
    if |parts| > 2 && parts[2] != "" then parts[2] else "1"
  }

  /** `((day - 1) % 5) + 1` with JavaScript's truncating `%`. */
  function ImageIndexOfDay(day: int): (index: int)
    ensures day >= 1 ==> 1 <= index <= 5
    ensures day < 1 ==> -3 <= index <= 1
    ensures Congruent(index, day, 5)
  {
    Rem(day - 1, 5) + 1
  }

  /** `getImageIndex(dateStr)`; `None` is the NaN that `parseInt` yields
      for a component without leading digits. */
  function GetImageIndex(dateStr: string): (r: Option<int>)
    ensures r.None? <==> ParseInt(DayText(dateStr)).None?
    ensures r.Some? ==> Congruent(r.value, ParseInt(DayText(dateStr)).value, 5)
    ensures r.Some? && ParseInt(DayText(dateStr)).value >= 1 ==> 1 <= r.value <= 5
  {
    match ParseInt(DayText(dateStr))
    case None => None
    case Some(day) =>
      Some(ImageIndexOfDay(day))
  }

  /** For a day of at least 1 the index is in 1..5 and cycles with period 5. */
  lemma ImageIndexInRange(dateStr: string)
    requires ParseInt(DayText(dateStr)).Some? && ParseInt(DayText(dateStr)).value >= 1
    ensures GetImageIndex(dateStr).Some?
    ensures 1 <= GetImageIndex(dateStr).value <= 5
  {
  }

  lemma ImageIndexPeriodic(day: int)
    requires day >= 1
    ensures ImageIndexOfDay(day + 5) == ImageIndexOfDay(day)
  {
  }

  /** Days 1..5 map to themselves; day 6 starts over. */
  lemma ImageIndexExamples()
    ensures ImageIndexOfDay(1) == 1 && ImageIndexOfDay(5) == 5 && ImageIndexOfDay(6) == 1
    ensures ImageIndexOfDay(26) == 1
  {
    assert ImageIndexOfDay(1) == 1 by { assert Rem(0, 5) == 0; }
    assert ImageIndexOfDay(5) == 5 by { assert Rem(4, 5) == 4; }
    assert ImageIndexOfDay(6) == 1 by { assert Rem(5, 5) == 0; }
    assert ImageIndexOfDay(26) == 1 by { assert Rem(25, 5) == 0; }
  }

  /** Below day 1 the index is not in 1..5 in general: days 0 down to -3
      keep their own value, and every fifth day, -4 among them, gives 1. */
  lemma DaysBelowOne(day: int)
    requires day < 1
    ensures -3 <= day ==> ImageIndexOfDay(day) == day
    ensures (day - 1) % 5 == 0 ==> ImageIndexOfDay(day) == 1
  {
    NegativeRemainder(day - 1, Rem(day - 1, 5));
  }

  /** A remainder by 5 of a negative dividend, pinned by congruence and
      range: it is the dividend itself above -5, and 0 on a multiple of 5. */
  lemma NegativeRemainder(a: int, r: int)
    requires a < 0 && -5 < r <= 0 && (a - r) % 5 == 0
    ensures -4 <= a ==> r == a
    ensures a % 5 == 0 ==> r == 0
  {
    var k := (a - r) / 5;
    assert a - r == 5 * k;
    if a % 5 == 0 {
      var m := a / 5;
      assert a == 5 * m;
      assert r == 5 * (m - k);
    }
  }

  /** A date with fewer than three components, or an empty third one, reads
      as day 1 and so as image 1. */
  lemma MissingDayIsOne(dateStr: string)
    requires |Split(dateStr, '.')| <= 2 || Split(dateStr, '.')[2] == ""
    ensures GetImageIndex(dateStr) == Some(1)
  {
    assert DayText(dateStr) == "1";
    assert NatToDecimal(1) == "1";
    DayReads(dateStr, 1);
    assert ImageIndexOfDay(1) == 1 by { assert Rem(0, 5) == 0; }
  }

  /** A day component that is the decimal text of `n` reads as day `n`. */
  lemma DayReads(dateStr: string, n: nat)
    requires DayText(dateStr) == NatToDecimal(n)
    ensures GetImageIndex(dateStr) == Some(ImageIndexOfDay(n))
  {
    ParseIntOfDecimal(n, "");
    assert NatToDecimal(n) + "" == NatToDecimal(n);
  }

  /** A date of three dot-separated parts whose last part is the decimal
      text of `n` reads as day `n`. */
  lemma DayOfDottedDate(year: string, month: string, n: nat)
    requires '.' !in year && '.' !in month
    ensures GetImageIndex(year + "." + month + "." + NatToDecimal(n)) == Some(ImageIndexOfDay(n))
  {
    var d := NatToDecimal(n);
    var parts := [year, month, d];
    assert forall i :: 0 <= i < |d| ==> d[i] != '.';
    assert parts[1..] == [month, d] && parts[1..][1..] == [d];
    assert Join([month, d], '.') == month + "." + d;
    assert Join(parts, '.') == year + "." + (month + "." + d);
    assert year + "." + (month + "." + d) == year + "." + month + "." + d;
    SplitJoin(parts, '.');
    DayReads(year + "." + month + "." + d, n);
  }

  /** The dotted date of the legacy composition: day 26, image 1. */
  lemma DottedDate()
    ensures GetImageIndex("2026.02.26") == Some(1)
  {
    assert NatToDecimal(26) == "26";
    assert "2026.02.26" == "2026" + "." + "02" + "." + NatToDecimal(26);
    DayOfDottedDate("2026", "02", 26);
    ImageIndexExamples();
  }

  /** The dates the two registered compositions carry contain no dot, so
      they read as day 1. */
  lemma UndottedDate()
    ensures GetImageIndex("2026年2月24日") == Some(1)
  {
    SplitJoin(["2026年2月24日"], '.');
    MissingDayIsOne("2026年2月24日");
  }

  /** Day 0 gives index 0, outside the promised 1..5: with a truncating `%`
      the bound needs day >= 1. */
  lemma DayZeroOutOfRange()
    ensures ImageIndexOfDay(0) == 0
    ensures GetImageIndex("2026.02.0") == Some(0)
  {
    assert Rem(-1, 5) == -1;
    assert NatToDecimal(0) == "0";
    assert "2026.02.0" == "2026" + "." + "02" + "." + NatToDecimal(0);
    DayOfDottedDate("2026", "02", 0);
  }

  /** The index the comment describes, using a floored remainder: in 1..5
      for every day, and equal to the shipped one for days from 1 on. */
  function ImageIndexOfDayFloored(day: int): (index: int)
    ensures 1 <= index <= 5
    ensures Congruent(index, day, 5)
    ensures day >= 1 ==> index == ImageIndexOfDay(day)
  {
    (day - 1) % 5 + 1
  }

  /** `getImageIndex` with the floored remainder: every date whose day
      component parses lands in 1..5, and dates with a day from 1 on keep the
      index the shipped function gives them. */
  function GetImageIndexFloored(dateStr: string): (r: Option<int>)
    ensures r.None? <==> ParseInt(DayText(dateStr)).None?
    ensures r.Some? ==> 1 <= r.value <= 5
    ensures r.Some? && ParseInt(DayText(dateStr)).value >= 1 ==> r == GetImageIndex(dateStr)
  {
    match ParseInt(DayText(dateStr))
    case None => None
    case Some(day) => Some(ImageIndexOfDayFloored(day))
  }

  // ---------------------------------------------------------------------
  // Registered compositions
  // ---------------------------------------------------------------------

  const VideoFrames: int := 3000
  const VideoFps: int := 30

  /** Root's NewsReport: 3000 frames at 30 fps with three slides. The
      opening takes 441 frames, the slides 833 each from frames 441, 1274 and
      2107, and the ending frames 2940..2999, which fills the video exactly. */
  lemma NewsReportDefaults()
    ensures NewsReport.ComputeLayout(VideoFrames, VideoFps, 3) == Some(NewsReport.Layout(
      Span(0, 441),
      [Span(441, 833), Span(1274, 833), Span(2107, 833)],
      Span(2940, 60)))
    ensures NewsReport.ComputeLayout(VideoFrames, VideoFps, 3).value.ending.End() == VideoFrames
  {
    assert NewsReport.OpeningShare(2940) == 441;
    var l := NewsReport.LayoutWith(VideoFrames, VideoFps, 3, 441).value;
    assert (3000 - 60 - 441) / 3 == 833;
    NewsReport.SlideInterval(VideoFrames, VideoFps, 3, 441, 0);
    NewsReport.SlideInterval(VideoFrames, VideoFps, 3, 441, 1);
    NewsReport.SlideInterval(VideoFrames, VideoFps, 3, 441, 2);
    var s := l.slides;
    assert s[0] == Span(441, 833) && s[1] == Span(1274, 833) && s[2] == Span(2107, 833);
    assert s == [s[0], s[1], s[2]];
  }

  /** Root's SingleNews props carry no frame fields and no theme colour (its
      `accentColor` is not a prop of that component), so the scenes take the
      default 150/300/150 frames and cover only frames 0..599 of the 3000
      registered; from frame 600 on no scene plays. */
  lemma SingleNewsDefaults(randomImageIndex: int, frame: int)
    requires 600 <= frame < VideoFrames
    ensures var c := SingleNews.Compose(RootSingleNewsProps(randomImageIndex), VideoFps);
      && c.totalFrames == 600
      && (forall i :: 0 <= i < 3 ==> c.scenes[i].accentColor == "#00FFaa")
      && (forall i :: 0 <= i < 3 ==> !c.scenes[i].span.Contains(frame))
  {
    var p := RootSingleNewsProps(randomImageIndex);
    SingleNews.DefaultLengths(p, VideoFps);
    SingleNews.ScenesPartition(p, VideoFps, frame);
  }

  /** The SingleNews props Root registers, for a given random image index;
      its other props are named for a different component and are unset
      here. */
  function RootSingleNewsProps(randomImageIndex: int): SingleNews.Props {
    SingleNews.Props(None, None, None, None, None, Some(randomImageIndex), None, None, None)
  }
}

=== FILE: single_news.dfy ===
/** The `SingleNews` composition (src/compositions/SingleNews.tsx): three
    consecutive scenes (opening, news slide, ending) whose lengths come from
    the props, and a looping background track that fades out over the last
    second. */
module SingleNews {
  import opened Outcomes
  import opened Timeline

  /** The component's props; `None` is a prop that was not supplied. */
  datatype Props = Props(
    themeColor: Option<string>,
    openingText: Option<string>,
    newsTitle: Option<string>,
    newsSummary: Option<string>,
    endingText: Option<string>,
    imageIndex: Option<int>,
    openingFrames: Option<int>,
    slideFrames: Option<int>,
    endingFrames: Option<int>)

  const DefaultThemeColor: string := "#00FFaa"
  const DefaultImageIndex: int := 1
  const DefaultOpeningFrames: int := 150
  const DefaultSlideFrames: int := 300
  const DefaultEndingFrames: int := 150

  /** The background-music level before the fade. */
  const BgmLevel: real := 0.12

  datatype SceneKind = OpeningScene | NewsSlideScene | EndingScene

  /** One `Sequence`: where it plays, the colour and picture it is given,
      and the narration track it plays. */
  datatype Scene = Scene(kind: SceneKind, span: Span, accentColor: string, imageIndex: int, narration: string)

  datatype Composition = Composition(totalFrames: int, fadeOutStart: int, scenes: seq<Scene>) {

    function Spans(): seq<Span> {
      seq(|scenes|, i requires 0 <= i < |scenes| => scenes[i].span)
    }

    /** The input range of the volume keyframes. */
    function Keyframes(): seq<int> {
      [0, fadeOutStart, totalFrames]
    }
  }

  function OpeningLength(p: Props): int {
    p.openingFrames.GetOr(DefaultOpeningFrames)
  }

  function SlideLength(p: Props): int {
    p.slideFrames.GetOr(DefaultSlideFrames)
  }

  function EndingLength(p: Props): int {
    p.endingFrames.GetOr(DefaultEndingFrames)
  }

  /** The composition the component builds at `fps` frames per second. */
  function Compose(p: Props, fps: int): (c: Composition)
    ensures |c.scenes| == 3
    ensures c.scenes[0].kind == OpeningScene && c.scenes[1].kind == NewsSlideScene && c.scenes[2].kind == EndingScene
    ensures c.totalFrames == OpeningLength(p) + SlideLength(p) + EndingLength(p)
    ensures c.scenes[0].span == Span(0, OpeningLength(p))
    ensures c.scenes[1].span == Span(c.scenes[0].span.End(), SlideLength(p))
    ensures c.scenes[2].span == Span(c.scenes[1].span.End(), EndingLength(p))
    ensures c.scenes[2].span.End() == c.totalFrames
    ensures c.fadeOutStart == c.totalFrames - fps
    ensures forall i :: 0 <= i < 3 ==>
      c.scenes[i].accentColor == p.themeColor.GetOr(DefaultThemeColor)
      && c.scenes[i].imageIndex == p.imageIndex.GetOr(DefaultImageIndex)
  {
    var themeColor := p.themeColor.GetOr(DefaultThemeColor);
    var imageIndex := p.imageIndex.GetOr(DefaultImageIndex);
    var openingFrames := OpeningLength(p);
    var slideFrames := SlideLength(p);
    var endingFrames := EndingLength(p);
    var totalFrames := openingFrames + slideFrames + endingFrames;
    Composition(
      totalFrames,
      totalFrames - fps,
      [ Scene(OpeningScene, Span(0, openingFrames), themeColor, imageIndex, "audio/opening.mp3"),
        Scene(NewsSlideScene, Span(openingFrames, slideFrames), themeColor, imageIndex, "audio/slide1.mp3"),
        Scene(EndingScene, Span(openingFrames + slideFrames, endingFrames), themeColor, imageIndex, "audio/ending.mp3") ])
  }

  /** With no frame props the scenes last 150, 300 and 150 frames: 600 in all. */
  lemma DefaultLengths(p: Props, fps: int)
    requires p.openingFrames.None? && p.slideFrames.None? && p.endingFrames.None?
    ensures var c := Compose(p, fps);
      && c.totalFrames == 600
      && c.Spans() == [Span(0, 150), Span(150, 300), Span(450, 150)]
  {
  }

  /** For non-negative lengths the three scenes partition the frames
      0 .. totalFrames - 1: a frame is in some scene exactly when it is in
      that range, and never in two. */
  lemma ScenesPartition(p: Props, fps: int, frame: int)
    requires OpeningLength(p) >= 0 && SlideLength(p) >= 0 && EndingLength(p) >= 0
    ensures var c := Compose(p, fps);
      && Tiles(c.Spans())
      && ((exists i :: 0 <= i < 3 && c.scenes[i].span.Contains(frame)) <==> 0 <= frame < c.totalFrames)
      && (forall i, j :: 0 <= i < j < 3 ==> !(c.scenes[i].span.Contains(frame) && c.scenes[j].span.Contains(frame)))
  {
    var c := Compose(p, fps);
    var spans := c.Spans();
    assert forall i :: 0 <= i < 3 ==> spans[i] == c.scenes[i].span;
    assert Tiles(spans);
    if 0 <= frame < c.totalFrames {
      var k := SpanAt(spans, frame);
      assert c.scenes[k].span.Contains(frame);
    }
    forall i | 0 <= i < 3 && c.scenes[i].span.Contains(frame)
      ensures 0 <= frame < c.totalFrames
    {
      TilesPartition(spans, frame, i);
    }
    forall i, j | 0 <= i < j < 3 && c.scenes[i].span.Contains(frame)
      ensures !c.scenes[j].span.Contains(frame)
    {
      TilesOrdered(spans, i, j);
    }
  }

  predicate StrictlyIncreasing(xs: seq<int>) {
    forall i :: 0 < i < |xs| ==> xs[i - 1] < xs[i]
  }

  /** The fade keyframes `[0, fadeOutStart, totalFrames]` are strictly
      increasing exactly when the video is longer than one second and the
      frame rate is positive. */
  lemma KeyframesOrdered(p: Props, fps: int)
    ensures var c := Compose(p, fps);
      StrictlyIncreasing(c.Keyframes()) <==> c.totalFrames > fps > 0
  {
    var c := Compose(p, fps);
    var k := c.Keyframes();
    assert StrictlyIncreasing(k) <==> k[0] < k[1] && k[1] < k[2];
  }

  /** One segment of Remotion's `interpolate`: the straight line through
      (x0, y0) and (x1, y1), extended to the left and clamped on the right. */
  function Segment(x: real, x0: real, x1: real, y0: real, y1: real): (y: real)
    requires x0 < x1
    ensures x == x0 ==> y == y0
    ensures x >= x1 ==> y == y1
    ensures y0 == y1 && x <= x1 ==> y == y0
    ensures x0 < x < x1 && y1 < y0 ==> y1 < y < y0
  {
    if x > x1 then y1
    else
      Ratio(x - x0, x1 - x0);
      Scaled((x - x0) / (x1 - x0), y1 - y0);
      y0 + (x - x0) / (x1 - x0) * (y1 - y0)
  }

  /** A fraction `q` of a rise `dy`: nothing when either is zero, and for
      a fall (`dy < 0`) and `0 < q < 1`, strictly between `dy` and 0. */
  lemma Scaled(q: real, dy: real)
    ensures q == 0.0 || dy == 0.0 ==> q * dy == 0.0
    ensures 0.0 < q < 1.0 && dy < 0.0 ==> dy < q * dy < 0.0
  {
  }

  /** `interpolate(frame, [0, fadeOutStart, totalFrames], [0.12, 0.12, 0],
      {extrapolateRight: 'clamp'})`. The library throws (here `None`) unless
      the input range is strictly increasing; otherwise it picks the first
      segment for frames up to `fadeOutStart` and the second one after it. */
  function BgmVolume(c: Composition, frame: int): (v: Option<real>)
    ensures v.Some? <==> StrictlyIncreasing(c.Keyframes())
    ensures v.Some? ==> 0.0 <= v.value <= BgmLevel
    ensures v.Some? && frame <= c.fadeOutStart ==> v.value == BgmLevel
    ensures v.Some? && frame >= c.totalFrames ==> v.value == 0.0
    ensures v.Some? && c.fadeOutStart < frame < c.totalFrames ==> 0.0 < v.value < BgmLevel
  {
    var k := c.Keyframes();
    assert StrictlyIncreasing(k) <==> k[0] < k[1] && k[1] < k[2];
    if !(0 < c.fadeOutStart < c.totalFrames) then None
    else if frame <= c.fadeOutStart then
      Some(Segment(frame as real, 0.0, c.fadeOutStart as real, BgmLevel, BgmLevel))
    else
      Ratio(frame as real - c.fadeOutStart as real, c.totalFrames as real - c.fadeOutStart as real);
      Some(Segment(frame as real, c.fadeOutStart as real, c.totalFrames as real, BgmLevel, 0.0))
  }

  /** Where a point lies between the ends of a segment. */
  lemma Ratio(n: real, d: real)
    requires d > 0.0
    ensures 0.0 < n < d ==> 0.0 < n / d < 1.0
    ensures n == d ==> n / d == 1.0
    ensures n == 0.0 ==> n / d == 0.0
  {
    if 0.0 < n < d {
      var q := n / d;
      assert q * d == n;
      if q >= 1.0 {
        assert false;
      }
    }
  }

  lemma RatioMonotonic(a: real, b: real, d: real)
    requires d > 0.0 && a <= b
    ensures a / d <= b / d
  {
  }

  /** The background volume never rises as the video plays. */
  lemma BgmFadesMonotonically(c: Composition, frame: int, later: int)
    requires StrictlyIncreasing(c.Keyframes())
    requires frame <= later
    ensures BgmVolume(c, later).value <= BgmVolume(c, frame).value
  {
    var s := c.fadeOutStart as real;
    var e := c.totalFrames as real;
    if c.fadeOutStart < frame && later <= c.totalFrames {
      RatioMonotonic(frame as real - s, later as real - s, e - s);
    }
  }
}

=== FILE: timeline.dfy ===
/** Placement of scenes on a composition's frame axis. A Remotion
    `<Sequence from={f} durationInFrames={d}>` shows its child on the frames
    f, f+1, ..., f+d-1 of the enclosing composition; a `Span` is that
    half-open interval. */
module Timeline {

  datatype Span = Span(from: int, duration: int) {

    function End(): int {
      from + duration
    }

    predicate Contains(frame: int) {
      from <= frame < End()
    }
  }

  /** Spans laid end to end: none has a negative length and each one starts
      on the frame where the previous one ends. */
  predicate Tiles(spans: seq<Span>) {
    && (forall i :: 0 <= i < |spans| ==> spans[i].duration >= 0)
    && (forall i :: 0 < i < |spans| ==> spans[i].from == spans[i - 1].End())
  }

  function Start(spans: seq<Span>): int
    requires |spans| > 0
  {
    spans[0].from
  }

  function Finish(spans: seq<Span>): int
    requires |spans| > 0
  {
    spans[|spans| - 1].End()
  }

  /** In a tiling, an earlier span ends no later than a later one begins. */
  lemma {:induction false} TilesOrdered(spans: seq<Span>, i: int, j: int)
    requires Tiles(spans)
    requires 0 <= i < j < |spans|
    ensures spans[i].End() <= spans[j].from
    decreases j - i
  {
    if i + 1 < j {
      TilesOrdered(spans, i + 1, j);
    }
  }

  /** Every span of a tiling lies between its start and its finish. */
  lemma TilesBounds(spans: seq<Span>, i: int)
    requires Tiles(spans)
    requires 0 <= i < |spans|
    ensures Start(spans) <= spans[i].from && spans[i].End() <= Finish(spans)
  {
    if 0 < i {
      TilesOrdered(spans, 0, i);
    }
    if i < |spans| - 1 {
      TilesOrdered(spans, i, |spans| - 1);
    }
  }

  /** The span of a tiling that is on screen at `frame`. */
  function SpanAt(spans: seq<Span>, frame: int): (i: nat)
    requires Tiles(spans) && |spans| > 0
    requires Start(spans) <= frame < Finish(spans)
    ensures i < |spans| && spans[i].Contains(frame)
  {
    if spans[|spans| - 1].from <= frame then |spans| - 1
    else SpanAt(spans[..|spans| - 1], frame)
  }

  /** A tiling partitions the frames from its start to its finish: a frame
      lies in some span exactly when it is in that range, and then in no span
      but the one `SpanAt` names. */
  lemma TilesPartition(spans: seq<Span>, frame: int, i: int)
    requires Tiles(spans)
    requires 0 <= i < |spans| && spans[i].Contains(frame)
    ensures Start(spans) <= frame < Finish(spans)
    ensures SpanAt(spans, frame) == i
  {
    TilesBounds(spans, i);
    var k := SpanAt(spans, frame);
    if k < i {
      TilesOrdered(spans, k, i);
    } else if i < k {
      TilesOrdered(spans, i, k);
    }
  }
}
